=== FILE: README.md ===
# Luoge custom dictionary manager — a Dafny model

This project models a small desktop tool for the Luoge input method. The
tool keeps a *custom dictionary* alongside a large *base dictionary*. Each
dictionary entry is a word with three parts: a name, an abbreviation code
and a rank index. The tool does five things:

- It computes a word's abbreviation code from a single-character code
  table. The rule depends on the word's length.
- It looks names up in the merged table, that is the base entries followed
  by the custom ones.
- It gives a new word a rank index one more than the largest index already
  used for its code, or 1 for a new code. Gaps are never reused, and after
  `Int.MAX_VALUE` the index wraps to `Int.MIN_VALUE`.
- It adds words to the custom dictionary and deletes words from it. After
  each change it rewrites the custom dictionary file and loads it again.
- It reads and writes the tab-separated dictionary file format.

All of this lives in the top-level functions of
`src/main/kotlin/example/Hello.kt`. The model uses pure functions over an
explicit state instead of module-level variables. A file is modelled as
its text, and reading a file back is modelled as parsing that text.

Modules:

- `Outcomes`: the `Option` and `Result` types.
- `Text`: the Kotlin string operations the code relies on, each one
  modelled with its JVM behaviour:
  - `trim`, using the Kotlin whitespace set;
  - `split` with a one-character separator, which keeps empty fields;
  - `joinToString`;
  - `take`;
  - `readLines`, where `\n`, `\r` and `\r\n` all end a line;
  - `Int.toString`;
  - `String.toInt`, which accepts an optional sign and ASCII digits and
    rejects values outside the 32-bit range;
  - 32-bit wrap-around for `Int` arithmetic.
- `Words`: the `Word` record, its `toString` form, and the parsers for one
  line of a dictionary file and one line of the character table.
- `Dictionary`: the merged lookup, the rank-index allocator, the delete
  filter, and the whole-file writer and loaders.
- `Encoder`: `findChar` and `calcCodeFor`. It also holds a second,
  table-driven statement of the length rule (`Slots`) and proves the
  encoder follows it.
- `Service`: start-up, and the Add and Delete buttons as transitions over
  `State`. `State` holds the character table, the base dictionary, the
  custom overlay, and the text of the custom dictionary file.

Three behaviours of the code that a reader may not expect:

- **Field counts.** A dictionary line needs *at least* three tab-separated
  fields and a character-table line at least two. Extra fields are ignored
  because Kotlin destructuring only reads the first components.
- **Delete looks in the merged table.** Delete uses
  `fetchExistingInCustomDict`, which searches base followed by overlay,
  just like the main lookup. A word that exists only in the base is
  therefore "found". The tool then rewrites and reloads the overlay, which
  stays the same because nothing in it equals that word. It does not
  report "not found".
- **Kotlin `Int`.** Indices are Kotlin `Int`s. A parsed index must lie in
  the 32-bit range. The `+ 1` in the allocator wraps, so an existing index
  of `Int.MAX_VALUE` makes the next index `Int.MIN_VALUE`. Stored indices
  may be negative.

A Kotlin `Char` is one UTF-16 unit, and the tool counts word length in
these units. A Dafny `char` is a whole Unicode scalar value. The two agree
for every character up to U+FFFF, and the model covers only such text.

## Model

| member | source | states |
|---|---|---|
| Words.WordToString | src/main/kotlin/example/Hello.kt:37-41 | the printed form starts with the name followed by a tab and is longer than name and code together |
| Words.WordFields | src/main/kotlin/example/Hello.kt:37-41 | splitting the printed form on tabs gives back name and code, plus the index's decimal form when there is one |
| Words.ParseEntryLine | src/main/kotlin/example/Hello.kt:26-31 | a line with fewer than three tab-separated fields fails with the number of fields found (one when it has no tab); a third field that is not an `Int` fails with that field; a parsed line has an `Int` index and tab-free fields made of the line's own characters |
| Words.EntryLineFields | src/main/kotlin/example/Hello.kt:28-29 | a line of three tab-free fields parses to the first as name, the second as code and the third's `toInt` value as index, in any numeral form `toInt` accepts |
| Words.EntryLineRoundTrip | src/main/kotlin/example/Hello.kt:28-29 | a storable word's printed line parses back to the same word |
| Words.EntryLineIgnoresExtraFields | src/main/kotlin/example/Hello.kt:28 | fields appended after a storable word's printed line are ignored |
| Words.EntryLineExtraFields | src/main/kotlin/example/Hello.kt:28-29 | fields after the third are ignored whatever numeral form the third takes: the line parses as its first three fields do |
| Words.EntryLineNeedsIndex | src/main/kotlin/example/Hello.kt:28 | a word printed without an index cannot be read back as a dictionary line; the missing third field is the error |
| Words.ParseCharLine | src/main/kotlin/example/Hello.kt:13-16 | a character-table line fails exactly when it has no tab, and then for lack of a second field; a parsed entry has no index and tab-free fields |
| Words.CharLineFields | src/main/kotlin/example/Hello.kt:14-15 | a character-table line's name is its first field and its code the second, whether or not more fields follow |
| Words.CharLineRoundTrip | src/main/kotlin/example/Hello.kt:13-16 | an unindexed word with safe fields round-trips through a character-table line |
| Text.Trim | src/main/kotlin/example/Hello.kt:52 | the result is a contiguous slice of the input, empty exactly when the input is all whitespace, and otherwise starts and ends with non-whitespace |
| Text.TrimIdempotent | src/main/kotlin/example/Hello.kt:63 | trimming twice is trimming once |
| Text.Split | src/main/kotlin/example/Hello.kt:28 | there is at least one field, no field holds the separator, and joining the fields with the separator gives back the input |
| Text.SplitJoin | src/main/kotlin/example/Hello.kt:14 | splitting a join of separator-free parts gives back the parts |
| Text.ReadLines | src/main/kotlin/example/Hello.kt:27 | lines hold no line break and only characters of the text; there are no lines exactly when the text is empty |
| Text.ReadLinesFirstLine | src/main/kotlin/example/Hello.kt:27 | the first line ends at the first "\n", "\r\n", or "\r" not followed by "\n"; the terminator is dropped, reading goes on after it, and a final terminator adds no empty line |
| Text.ReadLinesLastLine | src/main/kotlin/example/Hello.kt:27 | a last line without a terminator is read as it is |
| Text.ReadLinesJoin | src/main/kotlin/example/Hello.kt:112 | nonempty, break-free lines joined by "\n" read back as the same lines |
| Text.ParseInt | src/main/kotlin/example/Hello.kt:29 | a parsed value is a 32-bit `Int`; the text is a digit or a sign followed by digits only; an unsigned numeral parses exactly when its value is at most `Int.MAX_VALUE`, and then to that value |
| Text.ParseIntToString | src/main/kotlin/example/Hello.kt:29 | every `Int` printed in decimal parses back to itself |
| Text.ParseIntSigned | src/main/kotlin/example/Hello.kt:29 | a sign followed by digits parses exactly when the signed value fits an `Int`, and then to that value |
| Text.ParseIntRejectsExamples | src/main/kotlin/example/Hello.kt:29 | "1x" and "2147483648" do not parse, while "-2147483648" parses to `Int.MIN_VALUE` and "+1" to 1 |
| Text.ParseIntRejectsNonNumeral | src/main/kotlin/example/Hello.kt:29 | empty text, or text not starting with a digit or sign, does not parse |
| Text.WrapInt32 | src/main/kotlin/example/Hello.kt:101 | the result is an `Int` congruent to the input modulo 2^32, and an `Int` input is left alone |
| Dictionary.Find | src/main/kotlin/example/Hello.kt:123 | the result is missing exactly when no entry has the name; otherwise it is the first entry with that name |
| Dictionary.FindAppend | src/main/kotlin/example/Hello.kt:123 | searching a concatenation searches the first part and then the second |
| Dictionary.FetchExisting | src/main/kotlin/example/Hello.kt:117-119 | nothing is found exactly when the text is null or empty or no base or overlay entry has the name; a find has that name and comes from base or overlay |
| Dictionary.LookupHelpersAgree | src/main/kotlin/example/Hello.kt:117-130 | all three lookup helpers give the same answer, and a base entry shadows an overlay entry of the same name |
| Dictionary.MaxIndexFor | src/main/kotlin/example/Hello.kt:101 | the result is missing exactly when no entry has the code; otherwise it is an index some entry with the code carries, and no such entry's index is larger |
| Dictionary.NewIndexCharacterized | src/main/kotlin/example/Hello.kt:100-102 | allocation fails exactly when an entry with the code lacks an index; it gives 1 when the code is unused, and otherwise the largest index for the code plus one, wrapped to `Int` |
| Dictionary.NewIndexExceedsExisting | src/main/kotlin/example/Hello.kt:100-102 | without wrap-around, the new index is larger than every index already used for the code |
| Dictionary.NewIndexWrapsAtIntMax | src/main/kotlin/example/Hello.kt:101 | an existing index of `Int.MAX_VALUE` makes the allocation `Int.MIN_VALUE` |
| Dictionary.NewIndexIgnoresOtherCodes | src/main/kotlin/example/Hello.kt:101 | adding an entry with another code does not change the allocation |
| Dictionary.NewIndexAfterAdd | src/main/kotlin/example/Hello.kt:94-101 | after the allocated index is added for a code, the next allocation for that code is that index plus one |
| Dictionary.AllocationKeepsRanksDistinct | src/main/kotlin/example/Hello.kt:94-101 | without wrap-around, adding an entry with the allocated index keeps the indices within each code group pairwise different |
| Dictionary.Without | src/main/kotlin/example/Hello.kt:105 | no survivor equals the word, every other entry keeps its multiplicity, and a word not in the list leaves the list unchanged |
| Dictionary.WithoutAppend | src/main/kotlin/example/Hello.kt:105 | the filter works entry by entry, so the survivors keep their relative order |
| Dictionary.ParseAll | src/main/kotlin/example/Hello.kt:27-30 | loading succeeds exactly when every line parses, giving one entry per line in order; a failure is the first failing line's error |
| Dictionary.LoadDictionary | src/main/kotlin/example/Hello.kt:26-31 | a load gives one storable entry per line, and an empty file loads as the empty dictionary |
| Dictionary.LoadCharTable | src/main/kotlin/example/Hello.kt:13-16 | the table loads exactly when every line has a tab; its entries have no index and tab-free fields |
| Dictionary.LoadDictionaryLines | src/main/kotlin/example/Hello.kt:26-31 | a dictionary file loads exactly when each of its lines parses; entry k is what line k parses to; a failure is the first failing line's error |
| Dictionary.LoadCharTableLines | src/main/kotlin/example/Hello.kt:13-16 | entry k of the character table is what line k parses to; a failure is the first failing line's error |
| Dictionary.DictionaryRoundTrip | src/main/kotlin/example/Hello.kt:110-115 | loading the text written for storable entries gives back exactly those entries |
| Dictionary.CharTableRoundTrip | src/main/kotlin/example/Hello.kt:13-16 | an unindexed table with safe fields, printed line by line, loads back unchanged |
| Encoder.CharCode | src/main/kotlin/example/Hello.kt:135 | a known character gives the prefix of its code of the requested width, or the whole code when it is shorter; an unknown one gives the error marker |
| Encoder.EncodeFollowsSlots | src/main/kotlin/example/Hello.kt:133-142 | the code is the concatenation, in order, of the slot contributions: 2 letters for one character; 2+2 for two; 1+1+2 for three; 1+1+1 from the first three plus 1 from the last for four or more |
| Encoder.EncodeLength | src/main/kotlin/example/Hello.kt:136-141 | with every character known and every code at least two letters long, a word of two or more characters encodes to 4 letters and a one-character word to 2 |
| Encoder.EncodeSingleChar | src/main/kotlin/example/Hello.kt:137 | a one-character word gives the first two letters of its code, or the marker |
| Encoder.EncodeNothing | src/main/kotlin/example/Hello.kt:134 | null and the empty text both encode to "" |
| Encoder.EncodeIgnoresMiddle | src/main/kotlin/example/Hello.kt:140 | words of four or more characters that share the first three and the last characters encode alike |
| Encoder.MissingCharMarked | src/main/kotlin/example/Hello.kt:135-141 | a missing first character puts its marker at the start of the code, and a missing last character puts its marker at the end |
| Encoder.MissingFirstCharMarked | src/main/kotlin/example/Hello.kt:135-141 | a missing first character's marker opens the code |
| Encoder.MissingLastCharMarked | src/main/kotlin/example/Hello.kt:135-141 | a missing last character's marker closes the code of a word of two or more characters |
| Encoder.EncodeFieldSafe | src/main/kotlin/example/Hello.kt:93-95 | a word and table free of tabs and line breaks give a code free of them, so it can be stored |
| Encoder.EncodeExampleTwo | src/main/kotlin/example/Hello.kt:138 | with 你 = nihao and 好 = haoyun, 你好 encodes to "niha" |
| Encoder.EncodeExampleThree | src/main/kotlin/example/Hello.kt:139 | 你好啊 encodes to "nhaa" |
| Encoder.EncodeExampleFour | src/main/kotlin/example/Hello.kt:140 | 你好啊呀 encodes to "nhay" |
| Encoder.EncodeExampleMissing | src/main/kotlin/example/Hello.kt:135 | 吗 is not in the table, so it encodes to " error(吗) " and 你吗 to "ni error(吗) " |
| Service.Start | src/main/kotlin/example/Hello.kt:13-24 | start-up succeeds exactly when all three files load; the state then holds the loaded table, base and overlay, is well-formed and matches its overlay file; the first file that fails to load, in the order character table, base, overlay, stops it with that file's own error |
| Service.Persist | src/main/kotlin/example/Hello.kt:33-35 | the file gets the new text; the reload fails exactly when that text does not load, and then keeps the previous overlay and reports the loader's error; otherwise the overlay matches the file |
| Service.PersistRoundTrip | src/main/kotlin/example/Hello.kt:110-115 | writing storable entries and reloading them sets the overlay to exactly those entries |
| Service.AddWord | src/main/kotlin/example/Hello.kt:51-60 | blank text is ignored; a conflict happens exactly when the merged lookup finds the trimmed name; ignored, conflicting and index-less adds change nothing; an add writes the overlay with the new entry appended, and the overlay is then what the file reloads to; when the reload fails, the file is written but the overlay stays as it was |
| Service.AddAppends | src/main/kotlin/example/Hello.kt:92-98 | a new name adds exactly one entry, at the end, holding the name, its code and the allocated index; the state stays well-formed and matches its file |
| Service.AddOfBaseWordConflicts | src/main/kotlin/example/Hello.kt:54-58 | adding a name the base has reports the base entry and leaves the state untouched |
| Service.AddsRankConsecutively | src/main/kotlin/example/Hello.kt:94-101 | two successful adds with the same code get consecutive indices |
| Service.AddedEntry | src/main/kotlin/example/Hello.kt:93-94 | an added entry holds the trimmed name, its code and the allocated index |
| Service.AddKeepsRanksDistinct | src/main/kotlin/example/Hello.kt:92-101 | without wrap-around, an add keeps the indices within each code group of the merged table pairwise different |
| Service.DeleteWord | src/main/kotlin/example/Hello.kt:62-67 | blank text is ignored; "not found" happens exactly when the merged lookup finds nothing; neither changes the state; a delete writes the overlay without the entry found, and the overlay is then what the file reloads to; when the reload fails, the overlay stays as it was |
| Service.AddKeepsWellFormed | src/main/kotlin/example/Hello.kt:51-60 | every Add, whatever the text and outcome, keeps a well-formed state well-formed |
| Service.DeleteKeepsWellFormed | src/main/kotlin/example/Hello.kt:62-67 | every Delete, whatever the text and outcome, keeps a well-formed state well-formed |
| Service.DeleteFilters | src/main/kotlin/example/Hello.kt:104-108 | a found name deletes every overlay entry equal to the entry found, and the state stays well-formed and matches its file |
| Service.DeleteOfBaseOnlyWordKeepsOverlay | src/main/kotlin/example/Hello.kt:65-66 | deleting a name found only outside the overlay leaves the overlay as it was |
| Service.AddExampleAllocatesAfterBase | src/main/kotlin/example/Hello.kt:92-101 | with 你们 at code "niha" and index 3 in the base, adding " 你好 " adds 你好 with code "niha" and index 4 |

## Left out

- The JavaFX/TornadoFX view: the text field, the buttons, the labels and their listeners, the `information` dialogs, the stylesheet, and `main`. These are user interface. The two label listeners only call `calcCodeFor` and `fetchExisting`, which are modelled.
- File system access: opening files, the UTF-16 byte encoding with its byte-order mark, `user.home` path resolution, and I/O exceptions. A file is its decoded text, passed in and returned as a string.
- The module-level `customDict` variable, and reloading it in place. These become an explicit `State` that each transition takes and returns.
- Failures at start-up are results, not thrown exceptions.
- `Text.ParseInt`: accepts ASCII digits only. `Integer.parseInt` also accepts other Unicode decimal digits, which are not modelled.
- `Text.IsWhitespace`: follows the JVM whitespace set for the characters it lists. The model does not track how that set changes between Unicode versions.
- Supplementary characters: the model matches the tool only for text whose characters are all at most U+FFFF. A character above U+FFFF is one `char` here but two Kotlin `Char`s (a surrogate pair), so the tool counts it as two characters in `calcCodeFor` and looks up each lone surrogate, while the model looks up the whole character.
- Concurrency: every transition is atomic, because the single UI thread runs the handlers one at a time.

=== FILE: dictionary.dfy ===
/** The dictionary logic over the base dictionary and the custom overlay:
    merged lookup (`fetchExisting*`), rank-index allocation
    (`calcNewIndexForCode`), the delete filter (`deleteCustomWord`), and the
    file format (`writeToCustomDictFile`, `readLuogeDict` and the
    single-character table loader). Files are their text; reading and
    writing them is left to the caller. */
module Dictionary {
  import opened Outcomes
  import opened Text
  import opened Words

  /* ---------------------------------------------------------------------
     Lookup
     --------------------------------------------------------------------- */

  /** Position of the first entry named `name`. */
  function FirstMatch(dict: seq<Word>, name: string): (r: Option<nat>)
    ensures r.Some? ==> r.value < |dict| && dict[r.value].name == name
    ensures r.Some? ==> forall j | 0 <= j < r.value :: dict[j].name != name
    ensures r.None? ==> forall j | 0 <= j < |dict| :: dict[j].name != name
    decreases |dict|
  {
    if dict == [] then None
    else if dict[0].name == name then Some(0)
    else
      match FirstMatch(dict[1..], name)
      case None => None
      case Some(i) => Some(i + 1)
  }

  /** Entry `i` is the first one named `name`. */
  predicate FirstNamed(dict: seq<Word>, name: string, i: int) {
    0 <= i < |dict| && dict[i].name == name && forall j | 0 <= j < i :: dict[j].name != name
  }

  /** Kotlin `find` on the name: the first entry with exactly
      this name. */
  function Find(dict: seq<Word>, name: string): (r: Option<Word>)
    ensures r.None? <==> forall j | 0 <= j < |dict| :: dict[j].name != name
    ensures r.Some? ==> r.value.name == name && r.value in dict
    ensures r.Some? ==> exists i :: FirstNamed(dict, name, i) && dict[i] == r.value
  {
    match FirstMatch(dict, name)
    case None => None
    case Some(i) => Some(dict[i])
  }

  /** Searching a concatenation searches the first part, then the second. */
  lemma {:induction false} FindAppend(a: seq<Word>, b: seq<Word>, name: string)
    ensures Find(a + b, name) == if Find(a, name).Some? then Find(a, name) else Find(b, name)
    decreases |a|
  {
    if a == [] {
      assert a + b == b;
    } else {
      assert (a + b)[1..] == a[1..] + b;
      FindAppend(a[1..], b, name);
    }
  }

  /** `fetchExistingInMainDict`: null or empty text finds nothing; otherwise
      the first entry of base followed by overlay with that name. */
  function FetchExistingInMainDict(base: seq<Word>, overlay: seq<Word>, text: Option<string>): Option<Word>
  {
    if text.None? || text.value == [] then None else Find(base + overlay, text.value)
  }

  /** `fetchExistingInCustomDict`: despite its name, it searches the same
      merged table as `fetchExistingInMainDict`. */
  function FetchExistingInCustomDict(base: seq<Word>, overlay: seq<Word>, text: Option<string>): Option<Word>
  {
    if text.None? || text.value == [] then None else Find(base + overlay, text.value)
  }

  /** `fetchExisting`: the main-dictionary lookup, else the custom one. */
  function FetchExisting(base: seq<Word>, overlay: seq<Word>, text: Option<string>): (r: Option<Word>)
    ensures r.None? <==>
              || text.None? || text.value == []
              || ((forall j | 0 <= j < |base| :: base[j].name != text.value)
                  && (forall j | 0 <= j < |overlay| :: overlay[j].name != text.value))
    ensures r.Some? ==> r.value.name == text.value && (r.value in base || r.value in overlay)
  {
    match FetchExistingInMainDict(base, overlay, text)
    case Some(w) => Some(w)
    case None =>
      var r := FetchExistingInCustomDict(base, overlay, text);
      assert r.None? && text.Some? && text.value != [] ==>
        && (forall j | 0 <= j < |base| :: base[j].name != text.value)
        && (forall j | 0 <= j < |overlay| :: overlay[j].name != text.value) by {
        if r.None? && text.Some? && text.value != [] {
          forall j | 0 <= j < |base| ensures base[j].name != text.value {
            assert (base + overlay)[j] == base[j];
          }
          forall j | 0 <= j < |overlay| ensures overlay[j].name != text.value {
            assert (base + overlay)[|base| + j] == overlay[j];
          }
        }
      }
      r
  }

  /** The three lookup helpers agree on every input, and a base entry
      shadows an overlay entry of the same name. */
  lemma LookupHelpersAgree(base: seq<Word>, overlay: seq<Word>, name: string)
    requires name != []
    ensures FetchExistingInCustomDict(base, overlay, Some(name)) == FetchExistingInMainDict(base, overlay, Some(name))
    ensures FetchExisting(base, overlay, Some(name)) == FetchExistingInMainDict(base, overlay, Some(name))
    ensures FetchExisting(base, overlay, Some(name))
              == if Find(base, name).Some? then Find(base, name) else Find(overlay, name)
  {
    FindAppend(base, overlay, name);
  }

  /* ---------------------------------------------------------------------
     Rank-index allocation
     --------------------------------------------------------------------- */

  /** Every entry with this code carries an index. */
  predicate IndexedFor(dict: seq<Word>, code: string) {
    forall j | 0 <= j < |dict| && dict[j].code == code :: dict[j].index.Some?
  }

  /** No entry has this code. */
  predicate CodeAbsent(dict: seq<Word>, code: string) {
    forall j | 0 <= j < |dict| :: dict[j].code != code
  }

  /** The largest index among the entries with this code, if any. */
  function MaxIndexFor(dict: seq<Word>, code: string): (r: Option<int>)
    requires IndexedFor(dict, code)
    ensures r.None? <==> CodeAbsent(dict, code)
    ensures r.Some? ==> forall j | 0 <= j < |dict| && dict[j].code == code :: dict[j].index.value <= r.value
    ensures r.Some? ==> exists j | 0 <= j < |dict| :: dict[j].code == code && dict[j].index == Some(r.value)
    decreases |dict|
  {
    if dict == [] then None
    else
      var rest := MaxIndexFor(dict[1..], code);
      if dict[0].code != code then rest
      else
        match rest
        case None => dict[0].index
        case Some(m) => if m <= dict[0].index.value then dict[0].index else Some(m)
  }

  /** `calcNewIndexForCode`: one more than the largest index among the
      merged entries with this code, or 1 when there are none. The Kotlin
      `index!!` throws when such an entry has no index (`None` here), and
      `+ 1` wraps at the `Int` boundary. */
  function NewIndexFor(base: seq<Word>, overlay: seq<Word>, code: string): (r: Option<int>)
    ensures r.Some? ==> IsInt32(r.value)
  {
    var merged := base + overlay;
    if !IndexedFor(merged, code) then None
    else
      match MaxIndexFor(merged, code)
      case None => Some(1)
      case Some(m) => Some(WrapInt32(m + 1))
  }

  /** The allocation fails exactly when an entry with the code lacks an
      index; it is 1 when no merged entry has the code, and otherwise one
      more (as an `Int`) than the largest index of the entries that do. */
  lemma NewIndexCharacterized(base: seq<Word>, overlay: seq<Word>, code: string)
    ensures var r := NewIndexFor(base, overlay, code);
            && (r.None? <==> !IndexedFor(base + overlay, code))
            && (r.Some? && CodeAbsent(base + overlay, code) ==> r.value == 1)
            && (r.Some? && !CodeAbsent(base + overlay, code) ==>
                  exists j | 0 <= j < |base + overlay| ::
                    && (base + overlay)[j].code == code
                    && (base + overlay)[j].index.Some?
                    && r.value == WrapInt32((base + overlay)[j].index.value + 1)
                    && forall k | 0 <= k < |base + overlay| && (base + overlay)[k].code == code ::
                         (base + overlay)[k].index.value <= (base + overlay)[j].index.value)
  {
    var merged := base + overlay;
    if IndexedFor(merged, code) {
      match MaxIndexFor(merged, code) {
        case None =>
        case Some(m) =>
          var j :| 0 <= j < |merged| && merged[j].code == code && merged[j].index == Some(m);
      }
    }
  }

  /** Every index of this code is an `Int` below `Int.MAX_VALUE`, so adding
      one does not wrap. */
  predicate RoomFor(dict: seq<Word>, code: string) {
    forall j | 0 <= j < |dict| && dict[j].code == code ::
      dict[j].index.Some? && INT_MIN <= dict[j].index.value < INT_MAX
  }

  /** Unless it wraps, the new index exceeds every index already used for
      the code, in base and overlay alike. */
  lemma NewIndexExceedsExisting(base: seq<Word>, overlay: seq<Word>, code: string)
    requires RoomFor(base + overlay, code)
    ensures NewIndexFor(base, overlay, code).Some?
    ensures forall j | 0 <= j < |base + overlay| && (base + overlay)[j].code == code ::
              (base + overlay)[j].index.value < NewIndexFor(base, overlay, code).value
  {
    NewIndexCharacterized(base, overlay, code);
  }

  /** Because `+ 1` wraps, an index of `Int.MAX_VALUE` makes the next one
      `Int.MIN_VALUE`, which no longer exceeds the existing ones. */
  lemma NewIndexWrapsAtIntMax(base: seq<Word>, overlay: seq<Word>, code: string)
    requires IndexedFor(base + overlay, code)
    requires forall j | 0 <= j < |base + overlay| && (base + overlay)[j].code == code ::
               IsInt32((base + overlay)[j].index.value)
    requires exists j | 0 <= j < |base + overlay| :: (base + overlay)[j] == Word((base + overlay)[j].name, code, Some(INT_MAX))
    ensures NewIndexFor(base, overlay, code) == Some(INT_MIN)
  {
    var m := MaxIndexFor(base + overlay, code);
    assert m == Some(INT_MAX);
  }

  /** Entries with other codes do not affect the allocation. */
  lemma NewIndexIgnoresOtherCodes(base: seq<Word>, overlay: seq<Word>, w: Word, code: string)
    requires w.code != code
    ensures NewIndexFor(base, overlay + [w], code) == NewIndexFor(base, overlay, code)
  {
    var m := base + overlay;
    assert base + (overlay + [w]) == m + [w];
    AppendPredicates(m, w, code);
    if IndexedFor(m, code) {
      MaxIndexAppendOther(m, w, code);
      assert CodeAbsent(m + [w], code) == CodeAbsent(m, code);
    }
  }

  lemma AppendPredicates(dict: seq<Word>, w: Word, code: string)
    ensures IndexedFor(dict + [w], code) <==> IndexedFor(dict, code) && (w.code == code ==> w.index.Some?)
    ensures CodeAbsent(dict + [w], code) <==> CodeAbsent(dict, code) && w.code != code
  {
    var d := dict + [w];
    assert forall j | 0 <= j < |dict| :: d[j] == dict[j];
    assert d[|dict|] == w;
  }

  lemma {:induction false} MaxIndexAppendOther(dict: seq<Word>, w: Word, code: string)
    requires IndexedFor(dict, code) && w.code != code
    ensures IndexedFor(dict + [w], code)
    ensures MaxIndexFor(dict + [w], code) == MaxIndexFor(dict, code)
    decreases |dict|
  {
    AppendPredicates(dict, w, code);
    if dict != [] {
      assert (dict + [w])[1..] == dict[1..] + [w];
      MaxIndexAppendOther(dict[1..], w, code);
    }
  }

  lemma MaxIndexAppendSame(dict: seq<Word>, name: string, code: string, i: int)
    requires IndexedFor(dict, code)
    requires MaxIndexFor(dict, code).Some? ==> MaxIndexFor(dict, code).value < i
    ensures IndexedFor(dict + [Word(name, code, Some(i))], code)
    ensures MaxIndexFor(dict + [Word(name, code, Some(i))], code) == Some(i)
  {
    var d := dict + [Word(name, code, Some(i))];
    var r' := MaxIndexFor(d, code);
    assert d[|dict|].code == code;
    assert forall j | 0 <= j < |dict| :: d[j] == dict[j];
  }

  /** Allocating an index for a code and adding an entry with it makes the
      next allocation for that code one higher: adds with one code receive
      consecutive indices. */
  lemma NewIndexAfterAdd(base: seq<Word>, overlay: seq<Word>, name: string, code: string)
    requires RoomFor(base + overlay, code)
    ensures NewIndexFor(base, overlay, code).Some?
    ensures var i := NewIndexFor(base, overlay, code).value;
            NewIndexFor(base, overlay + [Word(name, code, Some(i))], code) == Some(WrapInt32(i + 1))
  {
    var m := base + overlay;
    AllocationAboveMax(base, overlay, code);
    var i := NewIndexFor(base, overlay, code).value;
    var w := Word(name, code, Some(i));
    assert base + (overlay + [w]) == m + [w];
    assert IndexedFor(m + [w], code) && MaxIndexFor(m + [w], code) == Some(i) by {
      assert MaxIndexFor(m, code).Some? ==> MaxIndexFor(m, code).value < i;
      MaxIndexAppendSame(m, name, code, i);
    }
    assert NewIndexFor(base, overlay + [w], code) == Some(WrapInt32(i + 1));
  }

  /** `NewIndexAfterAdd`, stated for an entry already built. Callers that
      hold the added `Word` rather than its name and code use this form: it
      spares them rebuilding the entry, which the solver finds costly. */
  lemma NextIndexAfter(base: seq<Word>, overlay: seq<Word>, w: Word)
    requires RoomFor(base + overlay, w.code)
    requires w.index == NewIndexFor(base, overlay, w.code)
    ensures w.index.Some?
    ensures NewIndexFor(base, overlay + [w], w.code) == Some(WrapInt32(w.index.value + 1))
  {
    NewIndexAfterAdd(base, overlay, w.name, w.code);
    assert w == Word(w.name, w.code, Some(NewIndexFor(base, overlay, w.code).value));
  }

  /** The allocation exceeds the largest index of the code. This is
      `NewIndexExceedsExisting` stated through `MaxIndexFor` instead of over
      every entry, the form the rank-distinctness proofs below consume. */
  lemma AllocationAboveMax(base: seq<Word>, overlay: seq<Word>, code: string)
    requires RoomFor(base + overlay, code)
    ensures IndexedFor(base + overlay, code)
    ensures NewIndexFor(base, overlay, code).Some?
    ensures MaxIndexFor(base + overlay, code).Some? ==>
              MaxIndexFor(base + overlay, code).value < NewIndexFor(base, overlay, code).value
  {
    var m := base + overlay;
    assert IndexedFor(m, code);
    match MaxIndexFor(m, code) {
      case None =>
      case Some(mx) =>
        var j :| 0 <= j < |m| && m[j].code == code && m[j].index == Some(mx);
        assert INT_MIN <= mx < INT_MAX;
    }
  }

  /** Within every code group, indexed entries have pairwise different
      indices. */
  predicate RanksDistinct(dict: seq<Word>) {
    forall i, j | 0 <= i < j < |dict| && dict[i].code == dict[j].code && dict[i].index.Some? ::
      dict[i].index != dict[j].index
  }

  /** Adding an entry with the allocated index keeps ranks distinct, as long
      as the allocation does not wrap. */
  lemma AllocationKeepsRanksDistinct(base: seq<Word>, overlay: seq<Word>, name: string, code: string)
    requires RanksDistinct(base + overlay)
    requires RoomFor(base + overlay, code)
    ensures NewIndexFor(base, overlay, code).Some?
    ensures RanksDistinct(base + (overlay + [Word(name, code, NewIndexFor(base, overlay, code))]))
  {
    NewIndexExceedsExisting(base, overlay, code);
    var w := Word(name, code, NewIndexFor(base, overlay, code));
    var m := base + overlay;
    assert base + (overlay + [w]) == m + [w];
  }

  /* ---------------------------------------------------------------------
     Delete filter
     --------------------------------------------------------------------- */

  /** Kotlin `filterNot` on data-class equality: every entry equal to `word` (name,
      code and index) removed. */
  function Without(dict: seq<Word>, word: Word): (r: seq<Word>)
    ensures forall j | 0 <= j < |r| :: r[j] != word
    ensures forall x | x != word :: multiset(r)[x] == multiset(dict)[x]
    ensures word !in dict ==> r == dict
    decreases |dict|
  {
    if dict == [] then []
    else
      var rest := Without(dict[1..], word);
      assert dict == [dict[0]] + dict[1..];
      if dict[0] == word then rest else [dict[0]] + rest
  }

  /** The filter works entry by entry, so the survivors keep their relative
      order. */
  lemma {:induction false} WithoutAppend(a: seq<Word>, b: seq<Word>, word: Word)
    ensures Without(a + b, word) == Without(a, word) + Without(b, word)
    decreases |a|
  {
    if a == [] {
      assert a + b == b;
    } else {
      assert (a + b)[1..] == a[1..] + b;
      WithoutAppend(a[1..], b, word);
    }
  }

  /* ---------------------------------------------------------------------
     File format
     --------------------------------------------------------------------- */

  /** All entries can be written to and read back from a dictionary file. */
  predicate AllStorable(words: seq<Word>) {
    forall k | 0 <= k < |words| :: Storable(words[k])
  }

  function EntryLines(words: seq<Word>): (lines: seq<string>)
    ensures |lines| == |words|
    ensures forall k | 0 <= k < |words| :: lines[k] == WordToString(words[k])
  {
    seq(|words|, k requires 0 <= k < |words| => WordToString(words[k]))
  }

  /** `writeToCustomDictFile`: each entry's `toString`, joined by "\n". */
  function Serialize(words: seq<Word>): string
  {
    Join(EntryLines(words), '\n')
  }

  /** Parsing every line in order: fails at the first line that fails. */
  function ParseAll(lines: seq<string>, parse: string -> Result<Word, LoadError>): (r: Result<seq<Word>, LoadError>)
    ensures r.Success? <==> forall k | 0 <= k < |lines| :: parse(lines[k]).Success?
    ensures r.Success? ==> |r.value| == |lines|
    ensures r.Success? ==> forall k | 0 <= k < |lines| :: parse(lines[k]) == Success(r.value[k])
    ensures r.Failure? ==> exists k | 0 <= k < |lines| ::
              parse(lines[k]) == Failure(r.error) && forall j | 0 <= j < k :: parse(lines[j]).Success?
    decreases |lines|
  {
    if lines == [] then Success([])
    else
      match parse(lines[0])
      case Failure(e) => Failure(e)
      case Success(w) =>
        match ParseAll(lines[1..], parse)
        case Failure(e) => Failure(e)
        case Success(ws) => Success([w] + ws)
  }

  /** `readLuogeDict` on the file's text: every line must hold a name, a
      code and an `Int` index; what loads can be stored again. */
  function LoadDictionary(text: string): (r: Result<seq<Word>, LoadError>)
    ensures r.Success? ==> |r.value| == |ReadLines(text)|
    ensures r.Success? ==> AllStorable(r.value)
    ensures text == [] ==> r == Success([])
  {
    var lines := ReadLines(text);
    var r := ParseAll(lines, ParseEntryLine);
    if r.Success? then
      assert forall k | 0 <= k < |r.value| :: Storable(r.value[k]) by {
        forall k | 0 <= k < |r.value| ensures Storable(r.value[k]) {
          assert ParseEntryLine(lines[k]) == Success(r.value[k]);
        }
      }
      r
    else r
  }

  /** The single-character table loader: every line must hold a name and a
      code; the entries have no index. */
  function LoadCharTable(text: string): (r: Result<seq<Word>, LoadError>)
    ensures r.Success? ==> |r.value| == |ReadLines(text)|
    ensures r.Success? ==> forall k | 0 <= k < |r.value| ::
              FieldSafe(r.value[k].name) && FieldSafe(r.value[k].code) && r.value[k].index.None?
    ensures r.Success? <==> forall k | 0 <= k < |ReadLines(text)| :: '\t' in ReadLines(text)[k]
  {
    var lines := ReadLines(text);
    var r := ParseAll(lines, ParseCharLine);
    if r.Success? then
      assert forall k | 0 <= k < |r.value| :: FieldSafe(r.value[k].name) && FieldSafe(r.value[k].code) by {
        forall k | 0 <= k < |r.value| ensures FieldSafe(r.value[k].name) && FieldSafe(r.value[k].code) {
          assert ParseCharLine(lines[k]) == Success(r.value[k]);
        }
      }
      r
    else r
  }

  /** Loading a dictionary file parses its lines in order: it succeeds
      exactly when every line parses, entry k is what line k parses to, and
      a failure reports the first failing line's error. */
  lemma LoadDictionaryLines(text: string)
    ensures LoadDictionary(text).Success? <==>
              forall k | 0 <= k < |ReadLines(text)| :: ParseEntryLine(ReadLines(text)[k]).Success?
    ensures LoadDictionary(text).Success? ==> forall k | 0 <= k < |ReadLines(text)| ::
              ParseEntryLine(ReadLines(text)[k]) == Success(LoadDictionary(text).value[k])
    ensures LoadDictionary(text).Failure? ==> exists k | 0 <= k < |ReadLines(text)| ::
              ParseEntryLine(ReadLines(text)[k]) == Failure(LoadDictionary(text).error) &&
              forall j | 0 <= j < k :: ParseEntryLine(ReadLines(text)[j]).Success?
  {
    assert LoadDictionary(text) == ParseAll(ReadLines(text), ParseEntryLine);
  }

  /** The character table loads line by line in the same way: entry k is
      what line k parses to, and a failure is the first failing line's. */
  lemma LoadCharTableLines(text: string)
    ensures LoadCharTable(text).Success? ==> forall k | 0 <= k < |ReadLines(text)| ::
              ParseCharLine(ReadLines(text)[k]) == Success(LoadCharTable(text).value[k])
    ensures LoadCharTable(text).Failure? ==> exists k | 0 <= k < |ReadLines(text)| ::
              ParseCharLine(ReadLines(text)[k]) == Failure(LoadCharTable(text).error) &&
              forall j | 0 <= j < k :: ParseCharLine(ReadLines(text)[j]).Success?
  {
    assert LoadCharTable(text) == ParseAll(ReadLines(text), ParseCharLine);
  }

  lemma StorableLine(w: Word)
    requires Storable(w)
    ensures WordToString(w) != [] && '\n' !in WordToString(w) && '\r' !in WordToString(w)
  {
    var digits := IntToString(w.index.value);
    assert '\n' !in digits && '\r' !in digits;
    assert WordToString(w) == w.name + "\t" + w.code + ("\t" + digits);
  }

  /** Reload after write: loading the text written for storable entries
      gives back exactly those entries, in order. */
  lemma DictionaryRoundTrip(words: seq<Word>)
    requires AllStorable(words)
    ensures LoadDictionary(Serialize(words)) == Success(words)
  {
    var lines := EntryLines(words);
    forall k | 0 <= k < |lines|
      ensures lines[k] != [] && '\n' !in lines[k] && '\r' !in lines[k]
      ensures ParseEntryLine(lines[k]) == Success(words[k])
    {
      StorableLine(words[k]);
      EntryLineRoundTrip(words[k]);
    }
    ReadLinesJoin(lines);
    var r := ParseAll(lines, ParseEntryLine);
    assert r.Success?;
    assert r.value == words;
  }

  /** The same round trip for a single-character table. */
  lemma CharTableRoundTrip(table: seq<Word>)
    requires forall k | 0 <= k < |table| ::
               FieldSafe(table[k].name) && FieldSafe(table[k].code) && table[k].index.None?
    ensures LoadCharTable(Serialize(table)) == Success(table)
  {
    var lines := EntryLines(table);
    forall k | 0 <= k < |lines|
      ensures lines[k] != [] && '\n' !in lines[k] && '\r' !in lines[k]
      ensures ParseCharLine(lines[k]) == Success(table[k])
    {
      assert lines[k] == table[k].name + "\t" + table[k].code;
      CharLineRoundTrip(table[k]);
    }
    ReadLinesJoin(lines);
    var r := ParseAll(lines, ParseCharLine);
    assert r.Success?;
    assert r.value == table;
  }
}

=== FILE: encoder.dfy ===
/** `calcCodeFor`: the abbreviation code of a word, built from prefixes of
    its characters' codes in the single-character table. */
module Encoder {
  import opened Outcomes
  import opened Text
  import opened Words
  import opened Dictionary

  /** `findChar`: the first table entry named exactly this one character. */
  function FindChar(table: seq<Word>, c: char): Option<Word>
  {
    Find(table, [c])
  }

  /** What a character missing from the table contributes. */
  function ErrorMarker(c: char): string
  {
    " error(" + [c] + ") "
  }

  /** `findCharCode(char, useSize)`: the first `width` characters of the
      character's code, or the error marker when it has no entry. */
  function CharCode(table: seq<Word>, c: char, width: nat): (r: string)
    ensures FindChar(table, c).Some? ==> r <= FindChar(table, c).value.code
    ensures FindChar(table, c).Some? ==>
              |r| == if width <= |FindChar(table, c).value.code| then width else |FindChar(table, c).value.code|
    ensures FindChar(table, c).None? ==> r == ErrorMarker(c)
  {
    match FindChar(table, c)
    case Some(w) => Take(w.code, width)
    case None => ErrorMarker(c)
  }

  /** The codes of `chars`, each cut to `width` letters, concatenated. */
  function CodesOf(table: seq<Word>, chars: string, width: nat): string
    decreases |chars|
  {
    if chars == [] then [] else CharCode(table, chars[0], width) + CodesOf(table, chars[1..], width)
  }

  /** `calcCodeFor` on a non-null text; the case split is on the number of
      Kotlin `Char`s. */
  function Encode(table: seq<Word>, text: string): string
  {
    if text == [] then []
    else if |text| == 1 then CharCode(table, text[0], 2)
    else if |text| == 2 then CodesOf(table, text, 2)
    else if |text| == 3 then CodesOf(table, Take(text, 2), 1) + CharCode(table, text[|text| - 1], 2)
    else CodesOf(table, Take(text, 3), 1) + CharCode(table, text[|text| - 1], 1)
  }

  /** `calcCodeFor(text: String?)`: null encodes like the empty text. */
  function CalcCodeFor(table: seq<Word>, text: Option<string>): string
  {
    match text
    case None => []
    case Some(t) => Encode(table, t)
  }

  /* ---------------------------------------------------------------------
     The rule as a table: which character contributes how many letters
     --------------------------------------------------------------------- */

  /** Character `pos` contributes the first `width` letters of its code. */
  datatype Slot = Slot(pos: nat, width: nat)

  /** The encoding rule by word length: one character gives 2 letters; two
      give 2 + 2; three give 1 + 1 + 2; four or more give one letter from
      each of the first three and the last. */
  function Slots(n: nat): (slots: seq<Slot>)
    ensures forall k | 0 <= k < |slots| :: slots[k].pos < n
  {
    if n == 0 then []
    else if n == 1 then [Slot(0, 2)]
    else if n == 2 then [Slot(0, 2), Slot(1, 2)]
    else if n == 3 then [Slot(0, 1), Slot(1, 1), Slot(2, 2)]
    else [Slot(0, 1), Slot(1, 1), Slot(2, 1), Slot(n - 1, 1)]
  }

  function SlotCodes(table: seq<Word>, text: string, slots: seq<Slot>): string
    requires forall k | 0 <= k < |slots| :: slots[k].pos < |text|
    decreases |slots|
  {
    if slots == [] then []
    else CharCode(table, text[slots[0].pos], slots[0].width) + SlotCodes(table, text, slots[1..])
  }

  lemma CodesOfPair(table: seq<Word>, chars: string, width: nat)
    requires |chars| == 2
    ensures CodesOf(table, chars, width) == CharCode(table, chars[0], width) + CharCode(table, chars[1], width)
  {
    assert chars[1..][0] == chars[1];
    assert CodesOf(table, chars[1..][1..], width) == [];
  }

  lemma CodesOfTriple(table: seq<Word>, chars: string, width: nat)
    requires |chars| == 3
    ensures CodesOf(table, chars, width)
         == CharCode(table, chars[0], width) + CharCode(table, chars[1], width) + CharCode(table, chars[2], width)
  {
    CodesOfPair(table, chars[1..], width);
  }

  /** `calcCodeFor` follows the length table exactly: the code is the
      concatenation of the slots' contributions, in order. */
  lemma EncodeFollowsSlots(table: seq<Word>, text: string)
    ensures Encode(table, text) == SlotCodes(table, text, Slots(|text|))
  {
    var n := |text|;
    if n == 1 {
      assert SlotCodes(table, text, Slots(1)) == CharCode(table, text[0], 2) + SlotCodes(table, text, []);
    } else if n == 2 {
      SlotsOfTwo(table, text);
    } else if n == 3 {
      SlotsOfThree(table, text);
    } else if n >= 4 {
      SlotsOfMore(table, text);
    }
  }

  lemma SlotsOfTwo(table: seq<Word>, text: string)
    requires |text| == 2
    ensures Encode(table, text) == SlotCodes(table, text, Slots(2))
  {
    var slots := Slots(2);
    assert slots[1..][1..] == [];
    assert SlotCodes(table, text, slots[1..])
        == CharCode(table, text[1], 2) + SlotCodes(table, text, slots[1..][1..]);
    CodesOfPair(table, text, 2);
  }

  lemma SlotsOfThree(table: seq<Word>, text: string)
    requires |text| == 3
    ensures Encode(table, text) == SlotCodes(table, text, Slots(3))
  {
    var a := CharCode(table, text[0], 1);
    var b := CharCode(table, text[1], 1);
    var c := CharCode(table, text[2], 2);
    assert SlotCodes(table, text, Slots(3)) == a + (b + c) by {
      SlotCodesOfThree(table, text);
    }
    assert Encode(table, text) == a + b + c by {
      EncodeOfThree(table, text);
    }
  }

  lemma SlotCodesOfThree(table: seq<Word>, text: string)
    requires |text| == 3
    ensures SlotCodes(table, text, Slots(3))
         == CharCode(table, text[0], 1) + (CharCode(table, text[1], 1) + CharCode(table, text[2], 2))
  {
    var slots := Slots(3);
    var s1 := slots[1..];
    var s2 := s1[1..];
    assert slots == [Slot(0, 1), Slot(1, 1), Slot(2, 2)];
    assert s1 == [Slot(1, 1), Slot(2, 2)];
    assert s2 == [Slot(2, 2)];
    assert s2[1..] == [];
  }

  lemma EncodeOfThree(table: seq<Word>, text: string)
    requires |text| == 3
    ensures Encode(table, text) == CharCode(table, text[0], 1) + CharCode(table, text[1], 1) + CharCode(table, text[2], 2)
  {
    var t := Take(text, 2);
    assert t[0] == text[0] && t[1] == text[1];
    CodesOfPair(table, t, 1);
  }

  lemma SlotsOfMore(table: seq<Word>, text: string)
    requires |text| >= 4
    ensures Encode(table, text) == SlotCodes(table, text, Slots(|text|))
  {
    var n := |text|;
    var a := CharCode(table, text[0], 1);
    var b := CharCode(table, text[1], 1);
    var c := CharCode(table, text[2], 1);
    var d := CharCode(table, text[n - 1], 1);
    assert SlotCodes(table, text, Slots(n)) == a + (b + (c + d)) by {
      SlotCodesOfMore(table, text);
    }
    assert Encode(table, text) == a + b + c + d by {
      EncodeOfMore(table, text);
    }
    ConcatAssoc(a, b, c, d);
  }

  lemma SlotCodesOfMore(table: seq<Word>, text: string)
    requires |text| >= 4
    ensures SlotCodes(table, text, Slots(|text|))
         == CharCode(table, text[0], 1) + (CharCode(table, text[1], 1)
              + (CharCode(table, text[2], 1) + CharCode(table, text[|text| - 1], 1)))
  {
    var n := |text|;
    var slots := Slots(n);
    var s1 := slots[1..];
    var s2 := s1[1..];
    var s3 := s2[1..];
    assert slots == [Slot(0, 1), Slot(1, 1), Slot(2, 1), Slot(n - 1, 1)];
    assert s1 == [Slot(1, 1), Slot(2, 1), Slot(n - 1, 1)];
    assert s2 == [Slot(2, 1), Slot(n - 1, 1)];
    assert s3 == [Slot(n - 1, 1)];
    assert s3[1..] == [];
    var d := CharCode(table, text[n - 1], 1);
    var c := CharCode(table, text[2], 1);
    var b := CharCode(table, text[1], 1);
    assert SlotCodes(table, text, s3) == d;
    assert SlotCodes(table, text, s2) == c + d;
    assert SlotCodes(table, text, s1) == b + (c + d);
  }

  lemma EncodeOfMore(table: seq<Word>, text: string)
    requires |text| >= 4
    ensures Encode(table, text)
         == CharCode(table, text[0], 1) + CharCode(table, text[1], 1)
            + CharCode(table, text[2], 1) + CharCode(table, text[|text| - 1], 1)
  {
    var t := Take(text, 3);
    assert t[0] == text[0] && t[1] == text[1] && t[2] == text[2];
    CodesOfTriple(table, t, 1);
  }

  lemma ConcatAssoc(a: string, b: string, c: string, d: string)
    ensures a + (b + (c + d)) == a + b + c + d
  {
  }

  /* ---------------------------------------------------------------------
     Properties
     --------------------------------------------------------------------- */

  /** Every character of `text` has a table entry whose code has at least
      `minLength` letters. */
  predicate AllKnown(table: seq<Word>, text: string, minLength: nat) {
    forall k | 0 <= k < |text| ::
      FindChar(table, text[k]).Some? && |FindChar(table, text[k]).value.code| >= minLength
  }

  /** Every character of `chars` contributes exactly `width` letters. */
  predicate FullWidth(table: seq<Word>, chars: string, width: nat) {
    forall k | 0 <= k < |chars| :: |CharCode(table, chars[k], width)| == width
  }

  lemma {:induction false} CodesOfLength(table: seq<Word>, chars: string, width: nat)
    requires FullWidth(table, chars, width)
    ensures |CodesOf(table, chars, width)| == width * |chars|
    decreases |chars|
  {
    if chars != [] {
      var rest := chars[1..];
      assert FullWidth(table, rest, width) by {
        forall k | 0 <= k < |rest| ensures |CharCode(table, rest[k], width)| == width {
          assert rest[k] == chars[k + 1];
        }
      }
      CodesOfLength(table, rest, width);
      assert |CharCode(table, chars[0], width)| == width;
      assert CodesOf(table, chars, width) == CharCode(table, chars[0], width) + CodesOf(table, rest, width);
      MulSucc(width, |rest|);
    }
  }

  lemma MulSucc(a: nat, n: nat)
    ensures a * (n + 1) == a * n + a
  {
  }

  /** With every character known and every code at least two letters long,
      a word of two or more characters encodes to exactly four letters, and
      a one-character word to two. */
  lemma EncodeLength(table: seq<Word>, text: string)
    requires AllKnown(table, text, 2)
    ensures |text| >= 2 ==> |Encode(table, text)| == 4
    ensures |text| == 1 ==> |Encode(table, text)| == 2
  {
    var n := |text|;
    if n >= 2 {
      var t := Take(text, if n == 2 then 2 else if n == 3 then 2 else 3);
      var w := if n == 2 then 2 else 1;
      assert FullWidth(table, t, w) by {
        forall k | 0 <= k < |t| ensures |CharCode(table, t[k], w)| == w {
          assert t[k] == text[k];
        }
      }
      CodesOfLength(table, t, w);
      assert n == 2 ==> t == text;
    }
  }

  /** A one-character word encodes to the first two letters of its code
      (all of it when shorter), or to the error marker. */
  lemma EncodeSingleChar(table: seq<Word>, c: char)
    ensures FindChar(table, c).Some? ==> Encode(table, [c]) == Take(FindChar(table, c).value.code, 2)
    ensures FindChar(table, c).None? ==> Encode(table, [c]) == ErrorMarker(c)
  {
  }

  /** Null and the empty text both encode to "". */
  lemma EncodeNothing(table: seq<Word>)
    ensures CalcCodeFor(table, None) == []
    ensures CalcCodeFor(table, Some([])) == []
  {
  }

  /** From the fourth character on, only the last one counts: two words
      that agree on their first three and their last characters encode
      alike. */
  lemma EncodeIgnoresMiddle(table: seq<Word>, u: string, v: string)
    requires |u| >= 4 && |v| >= 4
    requires u[..3] == v[..3] && u[|u| - 1] == v[|v| - 1]
    ensures Encode(table, u) == Encode(table, v)
  {
    assert Take(u, 3) == u[..3];
    assert Take(v, 3) == v[..3];
  }

  /** A missing first character puts its marker at the start of the code;
      a missing last character puts its marker at the end; the characters
      in between are still encoded. */
  lemma MissingCharMarked(table: seq<Word>, text: string)
    requires |text| >= 1
    ensures FindChar(table, text[0]).None? ==> ErrorMarker(text[0]) <= Encode(table, text)
    ensures |text| >= 2 && FindChar(table, text[|text| - 1]).None? ==>
              var r := Encode(table, text);
              var m := ErrorMarker(text[|text| - 1]);
              |m| <= |r| && r[|r| - |m|..] == m
  {
    if FindChar(table, text[0]).None? {
      MissingFirstCharMarked(table, text);
    }
    if |text| >= 2 && FindChar(table, text[|text| - 1]).None? {
      MissingLastCharMarked(table, text);
    }
  }

  /** The first half of `MissingCharMarked`: the marker opens the code. */
  lemma MissingFirstCharMarked(table: seq<Word>, text: string)
    requires |text| >= 1 && FindChar(table, text[0]).None?
    ensures ErrorMarker(text[0]) <= Encode(table, text)
  {
    var n := |text|;
    if n == 2 {
      CodesOfPair(table, text, 2);
    } else if n >= 3 {
      var t := Take(text, if n == 3 then 2 else 3);
      assert t[0] == text[0];
    }
  }

  /** The second half of `MissingCharMarked`: the marker closes the code. */
  lemma MissingLastCharMarked(table: seq<Word>, text: string)
    requires |text| >= 2 && FindChar(table, text[|text| - 1]).None?
    ensures var r := Encode(table, text);
            var m := ErrorMarker(text[|text| - 1]);
            |m| <= |r| && r[|r| - |m|..] == m
  {
    if |text| == 2 {
      CodesOfPair(table, text, 2);
    }
  }

  /** The code of a word holds no tab or line break when neither the word
      nor the table's codes do, so it can be stored in a dictionary line. */
  lemma EncodeFieldSafe(table: seq<Word>, text: string)
    requires forall k | 0 <= k < |table| :: FieldSafe(table[k].code)
    requires FieldSafe(text)
    ensures FieldSafe(Encode(table, text))
  {
    EncodeFollowsSlots(table, text);
    SlotCodesFieldSafe(table, text, Slots(|text|));
  }

  lemma {:induction false} SlotCodesFieldSafe(table: seq<Word>, text: string, slots: seq<Slot>)
    requires forall k | 0 <= k < |table| :: FieldSafe(table[k].code)
    requires FieldSafe(text)
    requires forall k | 0 <= k < |slots| :: slots[k].pos < |text|
    ensures FieldSafe(SlotCodes(table, text, slots))
    decreases |slots|
  {
    if slots != [] {
      var c := text[slots[0].pos];
      assert c in text;
      CharCodeFieldSafe(table, c, slots[0].width);
      SlotCodesFieldSafe(table, text, slots[1..]);
    }
  }

  /** One character's contribution is free of tabs and line breaks when
      the table's codes and the character are. */
  lemma CharCodeFieldSafe(table: seq<Word>, c: char, width: nat)
    requires forall k | 0 <= k < |table| :: FieldSafe(table[k].code)
    requires c != '\t' && c != '\n' && c != '\r'
    ensures FieldSafe(CharCode(table, c, width))
  {
    var piece := CharCode(table, c, width);
    match FindChar(table, c) {
      case Some(w) =>
        assert FieldSafe(w.code);
        forall x | x in piece ensures x in w.code {
          var i :| 0 <= i < |piece| && piece[i] == x;
          assert piece[i] == w.code[i];
        }
      case None =>
    }
  }

  /** The table of the worked examples: 你 nihao, 好 haoyun, 啊 aaaa,
      呀 yayu. */
  function ExampleTable(): seq<Word>
  {
    [Word("你", "nihao", None), Word("好", "haoyun", None),
     Word("啊", "aaaa", None), Word("呀", "yayu", None)]
  }

  lemma LookupNi()
    ensures CharCode(ExampleTable(), '你', 1) == "n" && CharCode(ExampleTable(), '你', 2) == "ni"
  {
    assert ExampleTable()[0].name == "你";
  }

  lemma LookupHao()
    ensures CharCode(ExampleTable(), '好', 1) == "h" && CharCode(ExampleTable(), '好', 2) == "ha"
  {
    var t := ExampleTable();
    assert t[0].name != "好" && t[1].name == "好";
    assert FirstMatch(t, "好") == Some(1);
  }

  lemma LookupA()
    ensures CharCode(ExampleTable(), '啊', 1) == "a" && CharCode(ExampleTable(), '啊', 2) == "aa"
  {
    var t := ExampleTable();
    assert t[0].name != "啊" && t[1].name != "啊" && t[2].name == "啊";
    assert FirstMatch(t, "啊") == Some(2);
  }

  lemma LookupYa()
    ensures CharCode(ExampleTable(), '呀', 1) == "y"
  {
    var t := ExampleTable();
    assert t[0].name != "呀" && t[1].name != "呀" && t[2].name != "呀" && t[3].name == "呀";
    assert FirstMatch(t, "呀") == Some(3);
  }

  lemma LookupMa()
    ensures CharCode(ExampleTable(), '吗', 2) == " error(吗) "
  {
    var t := ExampleTable();
    assert t[0].name != "吗" && t[1].name != "吗" && t[2].name != "吗" && t[3].name != "吗";
    assert FindChar(t, '吗') == None;
  }

  lemma EncodeTwo(table: seq<Word>)
    requires CharCode(table, '你', 2) == "ni" && CharCode(table, '好', 2) == "ha"
    ensures Encode(table, "你好") == "niha"
  {
    CodesOfPair(table, "你好", 2);
  }

  lemma EncodeThree(table: seq<Word>)
    requires CharCode(table, '你', 1) == "n" && CharCode(table, '好', 1) == "h" && CharCode(table, '啊', 2) == "aa"
    ensures Encode(table, "你好啊") == "nhaa"
  {
    var text := "你好啊";
    var t := Take(text, 2);
    assert t == "你好";
    CodesOfPair(table, t, 1);
    assert Encode(table, text) == CodesOf(table, t, 1) + CharCode(table, text[2], 2);
  }

  lemma EncodeFour(table: seq<Word>)
    requires CharCode(table, '你', 1) == "n" && CharCode(table, '好', 1) == "h"
    requires CharCode(table, '啊', 1) == "a" && CharCode(table, '呀', 1) == "y"
    ensures Encode(table, "你好啊呀") == "nhay"
  {
    var text := "你好啊呀";
    var t := Take(text, 3);
    assert t[0] == '你' && t[1] == '好' && t[2] == '啊';
    CodesOfTriple(table, t, 1);
    assert CodesOf(table, t, 1) == "nha";
    assert Encode(table, text) == CodesOf(table, t, 1) + CharCode(table, text[3], 1);
  }

  lemma EncodeMissing(table: seq<Word>)
    requires CharCode(table, '吗', 2) == " error(吗) "
    ensures Encode(table, "吗") == " error(吗) "
  {
  }

  lemma EncodeMissingSecond(table: seq<Word>)
    requires CharCode(table, '你', 2) == "ni" && CharCode(table, '吗', 2) == " error(吗) "
    ensures Encode(table, "你吗") == "ni error(吗) "
  {
    var text := "你吗";
    CodesOfPair(table, text, 2);
    assert Encode(table, text) == CharCode(table, '你', 2) + CharCode(table, '吗', 2);
  }

  /** Two characters take two letters each: 你好 encodes to "niha". */
  lemma EncodeExampleTwo()
    ensures Encode(ExampleTable(), "你好") == "niha"
  {
    LookupNi();
    LookupHao();
    EncodeTwo(ExampleTable());
  }

  /** Three characters take 1 + 1 + 2 letters: 你好啊 encodes to "nhaa". */
  lemma EncodeExampleThree()
    ensures Encode(ExampleTable(), "你好啊") == "nhaa"
  {
    LookupNi();
    LookupHao();
    LookupA();
    EncodeThree(ExampleTable());
  }

  /** Four characters take one letter each: 你好啊呀 encodes to "nhay". */
  lemma EncodeExampleFour()
    ensures Encode(ExampleTable(), "你好啊呀") == "nhay"
  {
    LookupNi();
    LookupHao();
    LookupA();
    LookupYa();
    EncodeFour(ExampleTable());
  }

  /** A character missing from the table becomes its marker, and the other
      characters are still encoded: 吗 encodes to " error(吗) " and 你吗 to
      "ni error(吗) ". */
  lemma EncodeExampleMissing()
    ensures Encode(ExampleTable(), "吗") == " error(吗) "
    ensures Encode(ExampleTable(), "你吗") == "ni error(吗) "
  {
    LookupNi();
    LookupMa();
    EncodeMissing(ExampleTable());
    EncodeMissingSecond(ExampleTable());
  }
}

=== FILE: outcomes.dfy ===
/** Optional values and fallible results, standing in for Kotlin's nullable
    types and for the exceptions the dictionary loaders throw. */
module Outcomes {

  /** A Kotlin `T?`: `None` is `null`. */
  datatype Option<+T> = None | Some(value: T)

  /** The outcome of an operation that either returns a value or throws. */
  datatype Result<+T, +E> = Success(value: T) | Failure(error: E)
}

=== FILE: service.dfy ===
/** The Add and Delete buttons, as pure transitions over an explicit state
    that replaces the module-level `singleWordDict`, `mainDict` and
    `customDict` values and the custom dictionary file. Every mutation
    writes the whole overlay and reads it back. */
module Service {
  import opened Outcomes
  import opened Text
  import opened Words
  import opened Dictionary
  import opened Encoder

  /** The single-character table, the base dictionary, the custom overlay
      as last loaded, and the text of the custom dictionary file. */
  datatype State = State(table: seq<Word>, base: seq<Word>, overlay: seq<Word>, overlayFile: string)

  /** What a button press did. */
  datatype Outcome =
    | Ignored                         // the trimmed text is blank
    | Conflict(existing: Word)        // Add: the name is already present
    | NotFound                        // Delete: the name is not present
    | IndexMissing                    // Add: `index!!` threw
    | ReloadFailed(error: LoadError)  // the file just written did not load
    | Added(entry: Word)
    | Deleted(entry: Word)

  /** The shape every loaded state has: table fields, base and overlay
      entries can all be written back to their files. */
  predicate WellFormed(s: State) {
    && (forall k | 0 <= k < |s.table| :: FieldSafe(s.table[k].name) && FieldSafe(s.table[k].code))
    && AllStorable(s.base)
    && AllStorable(s.overlay)
  }

  /** The overlay in memory is what its file loads to. */
  predicate InSync(s: State) {
    LoadDictionary(s.overlayFile) == Success(s.overlay)
  }

  /** Start-up: the three files are loaded in declaration order, and the
      first one that fails to load stops the program. */
  function Start(charText: string, baseText: string, overlayText: string): (r: Result<State, LoadError>)
    ensures r.Success? ==> WellFormed(r.value) && InSync(r.value)
    ensures r.Success? ==> r.value.overlayFile == overlayText
    ensures r.Success? <==>
              LoadCharTable(charText).Success? && LoadDictionary(baseText).Success? && LoadDictionary(overlayText).Success?
    ensures r.Success? ==> r.value.table == LoadCharTable(charText).value && r.value.base == LoadDictionary(baseText).value
    ensures LoadCharTable(charText).Failure? ==> r == Failure(LoadCharTable(charText).error)
    ensures LoadCharTable(charText).Success? && LoadDictionary(baseText).Failure? ==>
              r == Failure(LoadDictionary(baseText).error)
    ensures LoadCharTable(charText).Success? && LoadDictionary(baseText).Success? && LoadDictionary(overlayText).Failure? ==>
              r == Failure(LoadDictionary(overlayText).error)
  {
    match LoadCharTable(charText)
    case Failure(e) => Failure(e)
    case Success(table) =>
      match LoadDictionary(baseText)
      case Failure(e) => Failure(e)
      case Success(base) =>
        match LoadDictionary(overlayText)
        case Failure(e) => Failure(e)
        case Success(overlay) => Success(State(table, base, overlay, overlayText))
  }

  /** `writeToCustomDictFile(words)` then `reloadCustomDict()`. If the
      reload throws, the file has been written but the overlay in memory is
      the previous one. */
  function Persist(s: State, words: seq<Word>, done: Outcome): (r: (State, Outcome))
    requires !done.ReloadFailed?
    ensures r.0.overlayFile == Serialize(words)
    ensures r.0.table == s.table && r.0.base == s.base
    ensures r.1 == done ==> InSync(r.0)
    ensures r.1 != done ==> r.0.overlay == s.overlay && r.1.ReloadFailed?
    ensures r.1.ReloadFailed? <==> LoadDictionary(Serialize(words)).Failure?
    ensures r.1.ReloadFailed? ==> r.1.error == LoadDictionary(Serialize(words)).error
  {
    var file := Serialize(words);
    match LoadDictionary(file)
    case Failure(e) => (s.(overlayFile := file), ReloadFailed(e))
    case Success(reloaded) => (s.(overlay := reloaded, overlayFile := file), done)
  }

  /** The Add button: trim the text; do nothing when it is blank; report a
      conflict when the merged table already has the name; otherwise
      append a new entry with its code and a fresh index, write the
      overlay and reload it. */
  function AddWord(s: State, text: string): (r: (State, Outcome))
    ensures r.1 == Ignored <==> Trim(text) == []
    ensures r.1.Conflict? <==> Trim(text) != [] && FetchExisting(s.base, s.overlay, Some(Trim(text))).Some?
    ensures r.1.Conflict? || r.1.Ignored? || r.1.IndexMissing? ==> r.0 == s
    ensures r.1.Conflict? ==> r.1.existing.name == Trim(text)
    ensures r.1.Added? ==> r.1.entry.name == Trim(text) && r.0.overlayFile == Serialize(s.overlay + [r.1.entry])
    ensures r.1.Added? ==> InSync(r.0)
    ensures r.1.ReloadFailed? ==> r.0.overlay == s.overlay
    ensures r.0.table == s.table && r.0.base == s.base
  {
    var name := Trim(text);
    if name == [] then (s, Ignored)
    else
      match FetchExisting(s.base, s.overlay, Some(name))
      case Some(existing) => (s, Conflict(existing))
      case None =>
        var code := CalcCodeFor(s.table, Some(name));
        match NewIndexFor(s.base, s.overlay, code)
        case None => (s, IndexMissing)
        case Some(index) =>
          var entry := Word(name, code, Some(index));
          Persist(s, s.overlay + [entry], Added(entry))
  }

  /** The Delete button: trim the text; do nothing when it is blank; look
      the name up in the merged table (`fetchExistingInCustomDict`); report
      it missing, or remove every overlay entry equal to the entry found,
      write the overlay and reload it. */
  function DeleteWord(s: State, text: string): (r: (State, Outcome))
    ensures r.1 == Ignored <==> Trim(text) == []
    ensures r.1 == NotFound <==> Trim(text) != [] && FetchExisting(s.base, s.overlay, Some(Trim(text))).None?
    ensures r.1.Ignored? || r.1.NotFound? ==> r.0 == s
    ensures r.1.Deleted? ==> r.1.entry.name == Trim(text) && r.0.overlayFile == Serialize(Without(s.overlay, r.1.entry))
    ensures r.1.Deleted? ==> InSync(r.0)
    ensures r.1.ReloadFailed? ==> r.0.overlay == s.overlay
    ensures r.0.table == s.table && r.0.base == s.base
  {
    var name := Trim(text);
    if name == [] then (s, Ignored)
    else
      match FetchExistingInCustomDict(s.base, s.overlay, Some(name))
      case None => (s, NotFound)
      case Some(existing) => Persist(s, Without(s.overlay, existing), Deleted(existing))
  }

  /* ---------------------------------------------------------------------
     Properties of the two actions
     --------------------------------------------------------------------- */

  lemma StorableIndexed(words: seq<Word>, code: string)
    requires AllStorable(words)
    ensures IndexedFor(words, code)
    ensures forall j | 0 <= j < |words| :: IsInt32(words[j].index.value)
  {
  }

  /** Writing storable entries and reading them back gives those entries. */
  lemma PersistRoundTrip(s: State, words: seq<Word>, done: Outcome)
    requires AllStorable(words) && !done.ReloadFailed?
    ensures Persist(s, words, done) == (s.(overlay := words, overlayFile := Serialize(words)), done)
  {
    DictionaryRoundTrip(words);
  }

  /** A successful Add on a well-formed state whose trimmed name is new and
      free of tabs and line breaks: the overlay becomes the old overlay with
      one entry appended, holding the name, its code and the allocated
      index; the state stays well-formed and in sync with its file. */
  lemma AddAppends(s: State, text: string)
    requires WellFormed(s)
    requires Trim(text) != [] && FieldSafe(Trim(text))
    requires FetchExisting(s.base, s.overlay, Some(Trim(text))).None?
    ensures var name := Trim(text);
            var code := Encode(s.table, name);
            var r := AddWord(s, text);
            && NewIndexFor(s.base, s.overlay, code).Some?
            && r.1 == Added(Word(name, code, NewIndexFor(s.base, s.overlay, code)))
            && r.0.overlay == s.overlay + [r.1.entry]
            && WellFormed(r.0) && InSync(r.0)
  {
    AddResult(s, text);
    var name := Trim(text);
    var code := Encode(s.table, name);
    DictionaryRoundTrip(s.overlay + [Word(name, code, NewIndexFor(s.base, s.overlay, code))]);
  }

  /** The state and outcome of such an Add, spelled out. */
  lemma AddResult(s: State, text: string)
    requires WellFormed(s)
    requires Trim(text) != [] && FieldSafe(Trim(text))
    requires FetchExisting(s.base, s.overlay, Some(Trim(text))).None?
    ensures var name := Trim(text);
            var code := Encode(s.table, name);
            var entry := Word(name, code, NewIndexFor(s.base, s.overlay, code));
            var words := s.overlay + [entry];
            && NewIndexFor(s.base, s.overlay, code).Some?
            && AllStorable(words)
            && AddWord(s, text).1 == Added(entry)
            && AddWord(s, text).0.overlay == words
  {
    var name := Trim(text);
    var code := Encode(s.table, name);
    StorableIndexed(s.base + s.overlay, code);
    var index := NewIndexFor(s.base, s.overlay, code);
    assert IsInt32(index.value);
    EncodeFieldSafe(s.table, name);
    var entry := Word(name, code, index);
    assert Storable(entry);
    var words := s.overlay + [entry];
    assert AllStorable(words) by {
      forall k | 0 <= k < |words| ensures Storable(words[k]) {
        if k < |s.overlay| {
          assert words[k] == s.overlay[k];
        }
      }
    }
    PersistRoundTrip(s, words, Added(entry));
  }

  /** Add never touches the overlay or its file when the name is already in
      the base dictionary; it reports the base entry. */
  lemma AddOfBaseWordConflicts(s: State, text: string)
    requires Trim(text) != [] && Find(s.base, Trim(text)).Some?
    ensures AddWord(s, text) == (s, Conflict(Find(s.base, Trim(text)).value))
  {
    LookupHelpersAgree(s.base, s.overlay, Trim(text));
  }

  /** Two successful Adds whose words share a code receive consecutive
      indices, unless the index wraps at `Int.MAX_VALUE`. */
  lemma AddsRankConsecutively(s: State, first: string, s1: State, w1: Word, second: string, w2: Word)
    requires WellFormed(s) && FieldSafe(Trim(first))
    requires AddWord(s, first) == (s1, Added(w1))
    requires AddWord(s1, second).1 == Added(w2)
    requires w2.code == w1.code
    requires RoomFor(s.base + s.overlay, w1.code)
    ensures w1.index.Some? && w2.index == Some(WrapInt32(w1.index.value + 1))
  {
    var name := Trim(first);
    var code := Encode(s.table, name);
    assert w1 == Word(name, code, NewIndexFor(s.base, s.overlay, code)) by {
      AddedEntry(s, first, w1);
    }
    assert name != [] && FetchExisting(s.base, s.overlay, Some(name)).None?;
    assert s1.base == s.base && s1.overlay == s.overlay + [w1] by {
      AddResult(s, first);
    }
    assert w1.index.Some? && NewIndexFor(s.base, s.overlay + [w1], w1.code) == Some(WrapInt32(w1.index.value + 1)) by {
      NextIndexAfter(s.base, s.overlay, w1);
    }
    assert w2.index == NewIndexFor(s1.base, s1.overlay, code) by {
      AddedEntry(s1, second, w2);
    }
  }

  /** The entry an Add appends holds the trimmed name, its code and the
      index allocated for that code. */
  lemma AddedEntry(s: State, text: string, w: Word)
    requires AddWord(s, text).1 == Added(w)
    ensures w == Word(Trim(text), Encode(s.table, Trim(text)), NewIndexFor(s.base, s.overlay, Encode(s.table, Trim(text))))
  {
  }

  /** Add keeps ranks distinct in every code group of the merged table, as
      long as the new index does not wrap. */
  lemma AddKeepsRanksDistinct(s: State, text: string)
    requires WellFormed(s)
    requires RanksDistinct(s.base + s.overlay)
    requires Trim(text) != [] && FieldSafe(Trim(text))
    requires FetchExisting(s.base, s.overlay, Some(Trim(text))).None?
    requires RoomFor(s.base + s.overlay, Encode(s.table, Trim(text)))
    ensures RanksDistinct(AddWord(s, text).0.base + AddWord(s, text).0.overlay)
  {
    AddAppends(s, text);
    AllocationKeepsRanksDistinct(s.base, s.overlay, Trim(text), Encode(s.table, Trim(text)));
  }

  /** A Delete on a well-formed state whose name is found: the overlay
      becomes the old one without every entry equal to the entry found,
      and the state stays well-formed and in sync with its file. */
  lemma DeleteFilters(s: State, text: string)
    requires WellFormed(s)
    requires Trim(text) != []
    requires FetchExisting(s.base, s.overlay, Some(Trim(text))).Some?
    ensures var e := FetchExisting(s.base, s.overlay, Some(Trim(text))).value;
            var r := DeleteWord(s, text);
            && r.1 == Deleted(e)
            && r.0.overlay == Without(s.overlay, e)
            && WellFormed(r.0) && InSync(r.0)
  {
    var name := Trim(text);
    LookupHelpersAgree(s.base, s.overlay, name);
    var e := FetchExisting(s.base, s.overlay, Some(name)).value;
    var words := Without(s.overlay, e);
    assert AllStorable(words) by {
      forall k | 0 <= k < |words| ensures Storable(words[k]) {
        var x := words[k];
        assert x in multiset(words);
        assert x in s.overlay;
      }
    }
    PersistRoundTrip(s, words, Deleted(e));
  }

  /** Every Add keeps a state well-formed, whatever the text and outcome:
      the overlay is either untouched or what the written file reloads to. */
  lemma AddKeepsWellFormed(s: State, text: string)
    requires WellFormed(s)
    ensures WellFormed(AddWord(s, text).0)
  {
  }

  /** Every Delete keeps a state well-formed, whatever the text and outcome. */
  lemma DeleteKeepsWellFormed(s: State, text: string)
    requires WellFormed(s)
    ensures WellFormed(DeleteWord(s, text).0)
  {
  }

  /** Deleting a name whose merged lookup finds an entry that is not in the
      overlay (a base-only word) leaves the overlay as it was. */
  lemma DeleteOfBaseOnlyWordKeepsOverlay(s: State, text: string)
    requires WellFormed(s)
    requires Trim(text) != []
    requires FetchExisting(s.base, s.overlay, Some(Trim(text))).Some?
    requires FetchExisting(s.base, s.overlay, Some(Trim(text))).value !in s.overlay
    ensures DeleteWord(s, text).0.overlay == s.overlay
  {
    DeleteFilters(s, text);
  }

  /* ---------------------------------------------------------------------
     Worked examples
     --------------------------------------------------------------------- */

  /** Base has 你们 with code "niha" at index 3 and the overlay is empty:
      adding " 你好 " (trimmed to 你好, code "niha") allocates index 4. */
  lemma AddExampleAllocatesAfterBase()
    ensures var s := State(ExampleTable(), [Word("你们", "niha", Some(3))], [], []);
            AddWord(s, " 你好 ").1 == Added(Word("你好", "niha", Some(4)))
  {
    var s := State(ExampleTable(), [Word("你们", "niha", Some(3))], [], []);
    EncodeExampleTwo();
    ExampleWellFormed(s);
    AddAfterBase(s);
  }

  /** The same Add over any well-formed table in which 你好 encodes to
      "niha". */
  lemma AddAfterBase(s: State)
    requires WellFormed(s)
    requires s.base == [Word("你们", "niha", Some(3))] && s.overlay == []
    requires Encode(s.table, "你好") == "niha"
    ensures AddWord(s, " 你好 ").1 == Added(Word("你好", "niha", Some(4)))
  {
    TrimExample();
    assert FetchExisting(s.base, s.overlay, Some("你好")).None? by {
      assert s.base[0].name != "你好";
    }
    assert NewIndexFor(s.base, s.overlay, "niha") == Some(4) by {
      assert s.base + s.overlay == s.base;
      assert MaxIndexFor(s.base, "niha") == Some(3);
    }
    AddAppends(s, " 你好 ");
  }

  lemma TrimExample()
    ensures Trim(" 你好 ") == "你好"
  {
    var t := " 你好 ";
    assert !IsWhitespace(t[1]) && !IsWhitespace(t[2]);
    assert LeadingSpace(t) == 1;
    assert TrailingSpace(t) == 3;
    assert t[1..3] == "你好";
  }

  lemma ExampleWellFormed(s: State)
    requires s == State(ExampleTable(), [Word("你们", "niha", Some(3))], [], [])
    ensures WellFormed(s)
  {
  }
}

=== FILE: text.dfy ===
/** The Kotlin/JVM string primitives the dictionary manager is built on:
    `take`, `split`, `joinToString`, `readLines`, `trim`, `Int.toString`
    and `String.toInt`, stated over `seq<char>`. A Dafny `char` is a Unicode scalar value,
    while a Kotlin `Char` is a UTF-16 code unit; the two agree for every
    character up to U+FFFF, which is the text this model covers. */
module Text {
  import opened Outcomes

  const INT_MIN: int := -0x8000_0000
  const INT_MAX: int := 0x7fff_ffff

  /** True when `x` fits a Kotlin `Int`. */
  predicate IsInt32(x: int) {
    INT_MIN <= x <= INT_MAX
  }

  /** The value a Kotlin `Int` operation yields for the mathematical result
      `x`: two's-complement wrap-around modulo 2^32. */
  function WrapInt32(x: int): (r: int)
    ensures IsInt32(r)
    ensures IsInt32(x) ==> r == x
    ensures (x - r) % 0x1_0000_0000 == 0
  {
    var q := (x - INT_MIN) / 0x1_0000_0000;
    var r := (x - INT_MIN) % 0x1_0000_0000 + INT_MIN;
    assert x - r == q * 0x1_0000_0000;
    r
  }

  /** Kotlin `s.take(n)`: the first `n` characters, or all of `s` if shorter. */
  function Take(s: string, n: nat): (r: string)
    ensures |r| == if n < |s| then n else |s|
    ensures r <= s
  {
    if n < |s| then s[..n] else s
  }

  /** Position of the first character of `s` that is in `stops`, or `|s|`. */
  function FirstOf(s: string, stops: set<char>): (i: nat)
    ensures i <= |s|
    ensures forall k | 0 <= k < i :: s[k] !in stops
    ensures i < |s| ==> s[i] in stops
    decreases |s|
  {
    if s == [] || s[0] in stops then 0 else 1 + FirstOf(s[1..], stops)
  }

  /** Kotlin `parts.joinToString(sep)`; an empty list joins to "". */
  function Join(parts: seq<string>, sep: char): string
  {
    if |parts| == 0 then []
    else if |parts| == 1 then parts[0]
    else parts[0] + [sep] + Join(parts[1..], sep)
  }

  /** Kotlin `s.split(sep)` with no limit: every field between separators,
      empty ones (also a trailing one) included, so never an empty list. */
  function Split(s: string, sep: char): (parts: seq<string>)
    ensures |parts| >= 1
    ensures forall k | 0 <= k < |parts| :: sep !in parts[k]
    ensures forall k, c | 0 <= k < |parts| && c in parts[k] :: c in s
    ensures Join(parts, sep) == s
    decreases |s|
  {
    var i := FirstOf(s, {sep});
    if i == |s| then [s]
    else
      var rest := Split(s[i + 1..], sep);
      var parts := [s[..i]] + rest;
      assert parts[1..] == rest;
      assert s == s[..i] + [sep] + s[i + 1..];
      parts
  }

  /** Splitting a field that holds no separator gives that field alone. */
  lemma SplitNoSeparator(s: string, sep: char)
    requires sep !in s
    ensures Split(s, sep) == [s]
  {
    assert FirstOf(s, {sep}) == |s|;
  }

  /** Splitting peels off the field before the first separator. */
  lemma SplitCons(p: string, sep: char, rest: string)
    requires sep !in p
    ensures Split(p + [sep] + rest, sep) == [p] + Split(rest, sep)
  {
    var s := p + [sep] + rest;
    var i := FirstOf(s, {sep});
    assert s[|p|] == sep;
    assert i == |p|;
    assert s[..i] == p;
    assert s[i + 1..] == rest;
  }

  /** `split` undoes `joinToString` on fields free of the separator. */
  lemma {:induction false} SplitJoin(parts: seq<string>, sep: char)
    requires |parts| >= 1
    requires forall k | 0 <= k < |parts| :: sep !in parts[k]
    ensures Split(Join(parts, sep), sep) == parts
    decreases |parts|
  {
    if |parts| == 1 {
      SplitNoSeparator(parts[0], sep);
    } else {
      SplitJoin(parts[1..], sep);
      SplitCons(parts[0], sep, Join(parts[1..], sep));
      assert [parts[0]] + parts[1..] == parts;
    }
  }

  const LineBreaks: set<char> := {'\n', '\r'}

  /** Kotlin `File.readLines`, that is `BufferedReader.readLine` repeated:
      a line ends at "\n", "\r" or "\r\n"; a final terminator does not
      start another line, and an empty text has no lines. */
  function ReadLines(text: string): (lines: seq<string>)
    ensures forall k | 0 <= k < |lines| :: '\n' !in lines[k] && '\r' !in lines[k]
    ensures forall k, c | 0 <= k < |lines| && c in lines[k] :: c in text
    ensures |lines| == 0 <==> |text| == 0
    decreases |text|
  {
    if text == [] then []
    else
      var i := FirstOf(text, LineBreaks);
      var next :=
        if i == |text| then i
        else if text[i] == '\r' && i + 1 < |text| && text[i + 1] == '\n' then i + 2
        else i + 1;
      var rest := ReadLines(text[next..]);
      var lines := [text[..i]] + rest;
      assert lines[1..] == rest;
      assert forall c | c in text[..i] :: c in text;
      assert forall c | c in text[next..] :: c in text;
      lines
  }

  /** The first line ends at the first terminator: "\n", "\r\n", or a "\r"
      not followed by "\n". The terminator is dropped and reading carries
      on after it; a final terminator adds no empty line. */
  lemma ReadLinesFirstLine(l: string, t: string, rest: string)
    requires '\n' !in l && '\r' !in l
    requires t == "\n" || t == "\r\n" || (t == "\r" && (rest == [] || rest[0] != '\n'))
    ensures ReadLines(l + t + rest) == [l] + ReadLines(rest)
    ensures rest == [] ==> ReadLines(l + t) == [l]
  {
    var text := l + t + rest;
    var i := FirstOf(text, LineBreaks);
    assert text[|l|] == t[0] && t[0] in LineBreaks;
    assert forall k | 0 <= k < |l| :: text[k] == l[k];
    assert i == |l|;
    assert text[..i] == l;
    assert text[i + |t|..] == rest;
    if rest == [] {
      assert l + t + rest == l + t;
    }
  }

  /** A last line without a terminator is read as it is. */
  lemma ReadLinesLastLine(l: string)
    requires l != [] && '\n' !in l && '\r' !in l
    ensures ReadLines(l) == [l]
  {
    var i := FirstOf(l, LineBreaks);
    assert i == |l|;
    assert l[..i] == l;
  }

  /** Reading back lines joined with "\n" gives the lines again, provided
      none is empty or holds a line terminator. */
  lemma {:induction false} ReadLinesJoin(lines: seq<string>)
    requires forall k | 0 <= k < |lines| :: lines[k] != [] && '\n' !in lines[k] && '\r' !in lines[k]
    ensures ReadLines(Join(lines, '\n')) == lines
    decreases |lines|
  {
    if |lines| == 0 {
    } else if |lines| == 1 {
      var t := lines[0];
      var i := FirstOf(t, LineBreaks);
      assert t[..i] == t;
      assert t[i..] == [];
    } else {
      var rest := Join(lines[1..], '\n');
      var t := lines[0] + ['\n'] + rest;
      assert Join(lines, '\n') == t;
      var i := FirstOf(t, LineBreaks);
      assert t[|lines[0]|] == '\n';
      assert i == |lines[0]| && t[i] == '\n';
      assert t[..i] == lines[0];
      assert t[i + 1..] == rest;
      ReadLinesJoin(lines[1..]);
      assert [lines[0]] + lines[1..] == lines;
    }
  }

  /** Kotlin `Char.isWhitespace()` on the JVM: `Character.isWhitespace`
      or `Character.isSpaceChar`. */
  predicate IsWhitespace(c: char) {
    || c == ' ' || c == '\t' || c == '\n' || c == '\r'
    || c == '\U{B}' || c == '\U{C}'
    || ('\U{1C}' <= c <= '\U{1F}')
    || c == '\U{A0}' || c == '\U{1680}'
    || ('\U{2000}' <= c <= '\U{200A}')
    || c == '\U{2028}' || c == '\U{2029}' || c == '\U{202F}'
    || c == '\U{205F}' || c == '\U{3000}'
  }

  /** Number of leading whitespace characters. */
  function LeadingSpace(s: string): (i: nat)
    ensures i <= |s|
    ensures forall k | 0 <= k < i :: IsWhitespace(s[k])
    ensures i < |s| ==> !IsWhitespace(s[i])
    decreases |s|
  {
    if s == [] || !IsWhitespace(s[0]) then 0 else 1 + LeadingSpace(s[1..])
  }

  /** Where the trailing run of whitespace starts. */
  function TrailingSpace(s: string): (j: nat)
    ensures j <= |s|
    ensures forall k | j <= k < |s| :: IsWhitespace(s[k])
    ensures 0 < j ==> !IsWhitespace(s[j - 1])
    decreases |s|
  {
    if s == [] || !IsWhitespace(s[|s| - 1]) then |s| else TrailingSpace(s[..|s| - 1])
  }

  /** Kotlin `s.trim()`: `s` without its leading and trailing whitespace. */
  function Trim(s: string): (r: string)
    ensures r == [] <==> forall k | 0 <= k < |s| :: IsWhitespace(s[k])
    ensures r != [] ==> !IsWhitespace(r[0]) && !IsWhitespace(r[|r| - 1])
    ensures exists lo, hi | 0 <= lo <= hi <= |s| ::
              && r == s[lo..hi]
              && (forall k | 0 <= k < lo :: IsWhitespace(s[k]))
              && (forall k | hi <= k < |s| :: IsWhitespace(s[k]))
  {
    var lo := LeadingSpace(s);
    var hi := TrailingSpace(s);
    if lo == |s| then
      assert s[|s|..|s|] == [];
      []
    else
      assert s[lo..hi][0] == s[lo];
      s[lo..hi]
  }

  /** Trimming twice is trimming once. */
  lemma TrimIdempotent(s: string)
    ensures Trim(Trim(s)) == Trim(s)
  {
    var t := Trim(s);
    if t != [] {
      assert LeadingSpace(t) == 0;
      assert TrailingSpace(t) == |t|;
      assert t[0..|t|] == t;
    }
  }

  predicate IsDigit(c: char) {
    '0' <= c <= '9'
  }

  predicate AllDigits(s: string) {
    forall k | 0 <= k < |s| :: IsDigit(s[k])
  }

  /** The value of a string of decimal digits. */
  function DigitsValue(s: string): nat
    requires AllDigits(s)
    decreases |s|
  {
    if s == [] then 0 else 10 * DigitsValue(s[..|s| - 1]) + (s[|s| - 1] as int - '0' as int)
  }

  function DigitChar(d: nat): (c: char)
    requires d < 10
    ensures IsDigit(c) && c as int - '0' as int == d
  {
    ('0' as int + d) as char
  }

  /** The decimal digits of `n`, most significant first. */
  function NatToString(n: nat): (s: string)
    ensures s != [] && AllDigits(s)
    ensures DigitsValue(s) == n
    decreases n
  {
    if n < 10 then [DigitChar(n)]
    else
      var prefix := NatToString(n / 10);
      var s := prefix + [DigitChar(n % 10)];
      assert s[..|s| - 1] == prefix;
      s
  }

  /** Kotlin `Int.toString()` (as in a string template): decimal, with a
      leading '-' for negative values. */
  function IntToString(i: int): (s: string)
    ensures s != []
    ensures forall k | 0 <= k < |s| :: IsDigit(s[k]) || s[k] == '-'
  {
    if i < 0 then "-" + NatToString(-i) else NatToString(i)
  }

  /** Kotlin `String.toInt()`, that is `Integer.parseInt`: an optional sign
      followed by at least one decimal digit, denoting a value that fits an
      `Int`; anything else is a `NumberFormatException`, here `None`. */
  function ParseInt(s: string): (r: Option<int>)
    ensures r.Some? ==> IsInt32(r.value)
    ensures r.Some? ==> s != [] && (IsDigit(s[0]) || s[0] == '-' || s[0] == '+')
    ensures r.Some? ==> |s| >= 2 || IsDigit(s[0])
    ensures r.Some? ==> forall k | 1 <= k < |s| :: IsDigit(s[k])
    ensures s != [] && AllDigits(s) ==> (r.Some? <==> DigitsValue(s) <= INT_MAX)
    ensures s != [] && AllDigits(s) && r.Some? ==> r.value == DigitsValue(s)
  {
    if s == [] then None
    else
      var digits := if s[0] == '-' || s[0] == '+' then s[1..] else s;
      if digits == [] || !AllDigits(digits) then None
      else
        var n: int := DigitsValue(digits);
        var v := if s[0] == '-' then -n else n;
        if IsInt32(v) then Some(v) else None
  }

  /** `toInt` reads back what `toString` printed, for every `Int`. */
  lemma ParseIntToString(i: int)
    requires IsInt32(i)
    ensures ParseInt(IntToString(i)) == Some(i)
  {
    var s := IntToString(i);
    if i < 0 {
      assert s[1..] == NatToString(-i);
    } else {
      assert s[0] != '-' && s[0] != '+';
    }
  }

  /** Two index fields `toInt` refuses, a trailing non-digit and a numeral
      one past `Int.MAX_VALUE`, and two signed ones it accepts. */
  lemma ParseIntRejectsExamples()
    ensures ParseInt("1x") == None
    ensures ParseInt("2147483648") == None
    ensures ParseInt("-2147483648") == Some(INT_MIN)
    ensures ParseInt("+1") == Some(1)
  {
    assert "+1"[1..] == "1" && "1"[..0] == [];
    assert DigitsValue("1") == 1;
    assert !IsDigit("1x"[1]);
    var big := "2147483648";
    assert AllDigits(big);
    assert big[..9] == "214748364";
    assert big[..9][..8] == "21474836";
    assert DigitsValue(big) == 2147483648 by {
      DigitsValueOf(big);
    }
    var neg := "-2147483648";
    assert neg[1..] == big;
  }

  /** A sign followed by digits: `toInt` accepts it exactly when the signed
      value fits an `Int`, and then gives that value. */
  lemma ParseIntSigned(s: string)
    requires |s| >= 2 && (s[0] == '-' || s[0] == '+') && AllDigits(s[1..])
    ensures var v: int := if s[0] == '-' then -(DigitsValue(s[1..]) as int) else DigitsValue(s[1..]);
            (ParseInt(s).Some? <==> IsInt32(v)) && (ParseInt(s).Some? ==> ParseInt(s).value == v)
  {
  }

  /** The value of the numeral "2147483648", digit by digit. */
  lemma DigitsValueOf(big: string)
    requires big == "2147483648"
    ensures AllDigits(big) && DigitsValue(big) == 2147483648
  {
    assert DigitsValue(big[..1]) == 2;
    assert big[..2][..1] == big[..1];
    assert DigitsValue(big[..2]) == 21;
    assert big[..3][..2] == big[..2];
    assert DigitsValue(big[..3]) == 214;
    assert big[..4][..3] == big[..3];
    assert DigitsValue(big[..4]) == 2147;
    assert big[..5][..4] == big[..4];
    assert DigitsValue(big[..5]) == 21474;
    assert big[..6][..5] == big[..5];
    assert DigitsValue(big[..6]) == 214748;
    assert big[..7][..6] == big[..6];
    assert DigitsValue(big[..7]) == 2147483;
    assert big[..8][..7] == big[..7];
    assert DigitsValue(big[..8]) == 21474836;
    assert big[..9][..8] == big[..8];
    assert DigitsValue(big[..9]) == 214748364;
    assert big[..10][..9] == big[..9];
    assert big[..10] == big;
  }

  /** `toInt` refuses text that is not a signed decimal numeral. */
  lemma ParseIntRejectsNonNumeral(s: string)
    requires s == [] || (!IsDigit(s[0]) && s[0] != '-' && s[0] != '+')
    ensures ParseInt(s) == None
  {
  }
}

=== FILE: words.dfy ===
/** The `Word` data class, its `toString` line form, and the two line
    parsers: the three-field one of `readLuogeDict` and the two-field one of
    the single-character table loader. */
module Words {
  import opened Outcomes
  import opened Text

  /** A dictionary entry. `index` is the rank inside the group of words
      sharing `code`; single-character table entries have none. Equality is
      the data class's: name, code and index together. */
  datatype Word = Word(name: string, code: string, index: Option<int>)

  /** Why a line failed to load: the destructuring found too few
      tab-separated fields, or the index field is not an `Int`. */
  datatype LoadError = MissingField(found: nat) | BadIndex(field: string)

  /** `Word.toString`: `name<TAB>code`, followed by `<TAB>index` when the
      word has an index. */
  function WordToString(w: Word): (line: string)
    ensures |line| > |w.name| + |w.code|
    ensures line[..|w.name|] == w.name && line[|w.name|] == '\t'
  {
    w.name + "\t" + w.code + (match w.index case None => "" case Some(i) => "\t" + IntToString(i))
  }

  /** A field that survives being written on one tab-separated line. */
  predicate FieldSafe(s: string) {
    '\t' !in s && '\n' !in s && '\r' !in s
  }

  /** An entry that the dictionary file format can hold exactly. */
  predicate Storable(w: Word) {
    FieldSafe(w.name) && FieldSafe(w.code) && w.index.Some? && IsInt32(w.index.value)
  }

  /** One line of a base or custom dictionary file, as `readLuogeDict` reads
      it: destructuring the tab-split fields needs at least three of them and
      ignores any beyond, and the third must parse as an `Int`. */
  function ParseEntryLine(line: string): (r: Result<Word, LoadError>)
    ensures r.Success? ==> r.value.index.Some? && IsInt32(r.value.index.value)
    ensures r.Success? ==> '\t' !in r.value.name && '\t' !in r.value.code
    ensures r.Success? ==> forall c | c in r.value.name || c in r.value.code :: c in line
    ensures '\t' !in line ==> r == Failure(MissingField(1))
    ensures |Split(line, '\t')| < 3 ==> r == Failure(MissingField(|Split(line, '\t')|))
    ensures |Split(line, '\t')| >= 3 && ParseInt(Split(line, '\t')[2]).None? ==>
              r == Failure(BadIndex(Split(line, '\t')[2]))
  {
    var fields := Split(line, '\t');
    if |fields| < 3 then
      assert '\t' !in line ==> |fields| == 1 by {
        if '\t' !in line {
          SplitNoSeparator(line, '\t');
        }
      }
      Failure(MissingField(|fields|))
    else
      match ParseInt(fields[2])
      case None => Failure(BadIndex(fields[2]))
      case Some(i) => Success(Word(fields[0], fields[1], Some(i)))
  }

  /** One line of the single-character table: destructuring the tab-split
      fields needs at least two of them and ignores any beyond; the entry has
      no index. */
  function ParseCharLine(line: string): (r: Result<Word, LoadError>)
    ensures r.Success? ==> r.value.index.None?
    ensures r.Success? ==> '\t' !in r.value.name && '\t' !in r.value.code
    ensures r.Success? ==> forall c | c in r.value.name || c in r.value.code :: c in line
    ensures r.Failure? <==> '\t' !in line
    ensures r.Failure? ==> r == Failure(MissingField(1))
  {
    var fields := Split(line, '\t');
    if |fields| < 2 then
      assert Join(fields, '\t') == fields[0];
      Failure(MissingField(|fields|))
    else
      assert Join(fields, '\t') == fields[0] + ['\t'] + Join(fields[1..], '\t');
      assert line[|fields[0]|] == '\t';
      Success(Word(fields[0], fields[1], None))
  }

  /** The fields `toString` writes are exactly the word's name, code and,
      when present, printed index. */
  lemma WordFields(w: Word)
    requires FieldSafe(w.name) && FieldSafe(w.code)
    ensures w.index.None? ==> Split(WordToString(w), '\t') == [w.name, w.code]
    ensures w.index.Some? ==> Split(WordToString(w), '\t') == [w.name, w.code, IntToString(w.index.value)]
  {
    var line := WordToString(w);
    match w.index
    case None =>
      assert line == w.name + ['\t'] + w.code;
      SplitCons(w.name, '\t', w.code);
      SplitNoSeparator(w.code, '\t');
    case Some(i) =>
      var digits := IntToString(i);
      assert '\t' !in digits;
      assert line == w.name + ['\t'] + (w.code + ['\t'] + digits);
      SplitCons(w.name, '\t', w.code + ['\t'] + digits);
      SplitCons(w.code, '\t', digits);
      SplitNoSeparator(digits, '\t');
  }

  /** A storable entry's printed line parses back to the same entry. */
  lemma EntryLineRoundTrip(w: Word)
    requires Storable(w)
    ensures ParseEntryLine(WordToString(w)) == Success(w)
  {
    WordFields(w);
    ParseIntToString(w.index.value);
  }

  /** Fields after the third are ignored: appending `<TAB>extra` to a line
      does not change the entry it parses to. */
  lemma EntryLineIgnoresExtraFields(w: Word, extra: string)
    requires Storable(w)
    ensures ParseEntryLine(WordToString(w) + "\t" + extra) == Success(w)
  {
    var digits := IntToString(w.index.value);
    var line := WordToString(w) + "\t" + extra;
    assert '\t' !in digits;
    assert line == w.name + ['\t'] + (w.code + ['\t'] + (digits + ['\t'] + extra));
    SplitCons(w.name, '\t', w.code + ['\t'] + (digits + ['\t'] + extra));
    SplitCons(w.code, '\t', digits + ['\t'] + extra);
    SplitCons(digits, '\t', extra);
    ParseIntToString(w.index.value);
  }

  /** A two-field line, such as a single-character table line, is refused by
      the dictionary loader. */
  lemma EntryLineNeedsIndex(name: string, code: string)
    requires FieldSafe(name) && FieldSafe(code)
    ensures ParseEntryLine(WordToString(Word(name, code, None))) == Failure(MissingField(2))
  {
    WordFields(Word(name, code, None));
  }

  /** A line of three tab-free fields parses to its name, its code and the
      index `toInt` reads from the third field, whatever form that numeral
      takes (a leading `+`, leading zeros). */
  lemma EntryLineFields(name: string, code: string, f: string)
    requires '\t' !in name && '\t' !in code && '\t' !in f
    requires ParseInt(f).Some?
    ensures ParseEntryLine(name + "\t" + code + "\t" + f) == Success(Word(name, code, ParseInt(f)))
  {
    var line := name + "\t" + code + "\t" + f;
    assert line == name + ['\t'] + (code + ['\t'] + f);
    SplitCons(name, '\t', code + ['\t'] + f);
    SplitCons(code, '\t', f);
    SplitNoSeparator(f, '\t');
    EntryLineOfFields(line, name, code, f);
  }

  /** Fields after the third are ignored, whatever form the third takes:
      the line parses as its first three fields do. */
  lemma EntryLineExtraFields(name: string, code: string, f: string, extra: string)
    requires '\t' !in name && '\t' !in code && '\t' !in f
    requires ParseInt(f).Some?
    ensures ParseEntryLine(name + "\t" + code + "\t" + f + "\t" + extra) == Success(Word(name, code, ParseInt(f)))
  {
    var line := name + "\t" + code + "\t" + f + "\t" + extra;
    assert line == name + ['\t'] + (code + ['\t'] + (f + ['\t'] + extra));
    SplitCons(name, '\t', code + ['\t'] + (f + ['\t'] + extra));
    SplitCons(code, '\t', f + ['\t'] + extra);
    SplitCons(f, '\t', extra);
    EntryLineOfFields(line, name, code, f);
  }

  /** A line whose first three fields are known parses from those three. */
  lemma EntryLineOfFields(line: string, name: string, code: string, f: string)
    requires |Split(line, '\t')| >= 3
    requires Split(line, '\t')[0] == name && Split(line, '\t')[1] == code && Split(line, '\t')[2] == f
    requires ParseInt(f).Some?
    ensures ParseEntryLine(line) == Success(Word(name, code, ParseInt(f)))
  {
  }

  /** A character-table line's name is its first field and its code the
      second, with or without further fields after them. */
  lemma CharLineFields(name: string, code: string, extra: string)
    requires '\t' !in name && '\t' !in code
    ensures ParseCharLine(name + "\t" + code) == Success(Word(name, code, None))
    ensures ParseCharLine(name + "\t" + code + "\t" + extra) == Success(Word(name, code, None))
  {
    assert name + "\t" + code == name + ['\t'] + code;
    SplitCons(name, '\t', code);
    SplitNoSeparator(code, '\t');
    assert name + "\t" + code + "\t" + extra == name + ['\t'] + (code + ['\t'] + extra);
    SplitCons(name, '\t', code + ['\t'] + extra);
    SplitCons(code, '\t', extra);
  }

  /** A single-character table entry's printed line parses back to it. */
  lemma CharLineRoundTrip(w: Word)
    requires FieldSafe(w.name) && FieldSafe(w.code) && w.index.None?
    ensures ParseCharLine(WordToString(w)) == Success(w)
  {
    WordFields(w);
  }
}
